=== FILE: README.md ===
# SideDock ToDo: a model of the task store

SideDock ToDo is a local-only task manager for the browser. It keeps one
*day record* per calendar date (`YYYY-MM-DD`), holding that day's task list.
It also keeps one meta value, `lastOpenedDate`. This project models the
store logic of `app.js` as pure functions over an immutable store:

- `map<string, DayRecord>` plus the last opened date;
- parsing of the quick-add line (`#tag` words and a `30m` / `15min` / `5分`
  estimate snapped to 5, 15, 30 or 60 minutes);
- the task operations on today's record (add, update, delete, reorder,
  toggle done, cycle priority, cycle estimate);
- the daily rollover that copies yesterday's open tasks into today, and
  the manual restore from an archive day;
- the seven-day retention purge;
- the summary counters;
- the validation and round trip of export and import;
- the drag-and-drop reordering of the card list.

Modules follow the parts of the program:

| module | file | contents |
|---|---|---|
| `Wrappers` | wrappers.dfy | `Option` |
| `Text` | text.dfy | whitespace and digits, `trim`, decimal strings, `padStart` |
| `Dates` | dates.dfy | `formatDate` and its inverse |
| `Parsing` | parsing.dfy | `parseTags`, `parseEstimate`, `parseInput` as scanners over tokens |
| `Tasks` | tasks.dfy | tasks and one day's record, the per-record operations |
| `DayStore` | store.dfy | the store, `getTodayRecord`/`saveDayRecord`, the handlers that write |
| `Rollover` | rollover.dfy | `performRollover`, `checkAndPerformRollover`, `restoreIncompleteTasks` |
| `Retention` | retention.dfy | `purgeOldRecords`, the startup sequence |
| `Summary` | summary.dfy | `updateSummary` |
| `Transfer` | transfer.dfy | `exportData`, `importData` |
| `DragDrop` | dragdrop.dfy | `handleDrop` |

Things the program takes from the environment are parameters:

- `generateId()` is an id oracle `newId: nat -> string` (the id of the k-th
  copy), or a given `id`. Distinctness is a precondition where a property
  needs it.
- `Date.now()` is `now`.
- Today's date key is `today`.
- `getRecentDates(ARCHIVE_DAYS)` is the list `recent`.
- The key order in which `getAll` returns records is the list `keys`.

The regular expressions are modelled as explicit scanners. Each one turns
the input into a token sequence (`Lit`, `Tag`, `Estimate`) that renders back
to the input. A `replace` removes the matched tokens. A `match` reads the
first estimate or every tag.

Tasks carry only a boolean `done`: `app.js` has no status cycle, pinning,
reminders or focus timer.

## Model

| member | source | states |
|---|---|---|
| Dates.FormatDate | app.js:34-39 | for a four-digit year the key is ten characters long with `-` at positions 4 and 7 |
| Dates.FormatDateRoundTrip | app.js:34-39 | reading the key back gives the same year, month and day: the zero padding loses nothing |
| Dates.FormatDateInjective | app.js:34-39 | two different dates never share a day-record key |
| Text.Trim | app.js:96 | the result is a slice of the input with only whitespace before and after it, and itself neither starts nor ends with whitespace; it is empty exactly when the input is all whitespace |
| Text.DecimalOfNatToString | app.js:592-594 | the decimal text of a number reads back as that number |
| Parsing.TagScan | app.js:84 | `#` followed by tag characters is a tag that takes the longest run of them; no `#` or tag is directly followed by an unmatched tag character |
| Parsing.TagScanRenders | app.js:94 | the tag tokens and the plain characters, put back together, are exactly the input |
| Parsing.ParseTags | app.js:83-86 | every collected tag is non-empty and contains neither whitespace nor `#` |
| Parsing.TagWords | app.js:85 | a word is collected exactly when a tag token carries it |
| Parsing.TagWordsAppend | app.js:84-85 | the tags of two token runs are the tags of the first followed by those of the second |
| Parsing.ParseTagsTag | app.js:84-85 | `#` followed by a whole word of tag characters contributes that word, and the search continues after it |
| Parsing.ParseTagsBareHash | app.js:84 | a `#` not followed by a tag character contributes nothing |
| Parsing.ParseTagsLit | app.js:84 | any character other than `#` contributes nothing |
| Parsing.NoHashNoTags | app.js:83-94 | input without `#` has no tags, and removing tags leaves it unchanged |
| Parsing.DigitRun | app.js:66 | `\d+` covers only digits and stops before the first non-digit |
| Parsing.UnitLength | app.js:66 | a unit is matched exactly when the text starts with `m`, `M` or `分`, and the match is a unit word |
| Parsing.EstimateScanRenders | app.js:95 | the estimate tokens and the plain characters, put back together, are exactly the input |
| Parsing.EstimateScanWellFormed | app.js:95 | every estimate token is digits, then whitespace, then a unit word |
| Parsing.EstimateScanMaximal | app.js:66 | no estimate starts right after a digit left as plain text: a match takes the whole run of digits |
| Parsing.FirstEstimate | app.js:66-67 | none exactly when no token is an estimate; otherwise the digits of the first estimate token |
| Parsing.SnapSteps | app.js:69-80 | the loop picks 5 up to 10, 15 up to 22, 30 up to 45, and 60 above that |
| Parsing.Snap | app.js:69-80 | the result is one of 5, 15, 30, 60 and is at least as close to the value as any of them; on a tie the smaller one wins |
| Parsing.EstimateScanLeftmost | app.js:66 | the scan is the leftmost search: a character left as plain text starts no match, and an estimate token is exactly the match that starts where it does |
| Parsing.ScanFindsNone | app.js:66-68 | the scan finds no estimate exactly when no position of the input starts a match |
| Parsing.ScanFindsFirst | app.js:66-67 | the first estimate found carries the whole digit run of the leftmost match |
| Parsing.ParseEstimate | app.js:65-81 | a found estimate is one of 5, 15, 30, 60 |
| Parsing.ParseEstimateNone | app.js:65-68 | the estimate is null exactly when no position of the input starts a number-and-unit match |
| Parsing.ParseEstimateFirst | app.js:65-81 | otherwise it is the snapped value of the digits of the leftmost match |
| Parsing.ParseInputWith | app.js:88-101 | the title is never empty; when nothing but whitespace is left once tags and estimates are removed it is the placeholder, otherwise it is that remainder trimmed, no longer than the input |
| Parsing.ParseInputAsWritten | app.js:88-101 | tags and estimate are those of the raw input, and the title is non-empty |
| Parsing.ParseInput | app.js:88-101 | the title is non-empty, the tags and the estimate are those of the raw input, and a found estimate is one of the snapped values; this is the reading that removes the unit word whole |
| Parsing.AsWrittenKeepsIn | app.js:95 | with `m` tried before `min`, a `<digits><spaces>min` phrase is cut after the `m`, and `in` stays in the title |
| Parsing.WholeWordRemovesEstimate | app.js:95 | with the longer unit preferred, the whole phrase is one estimate token and nothing of it is left in the title |
| Parsing.FiveMinTitle | app.js:88-101 | `parseInput("5min")` as written gives the title `in` |
| Parsing.FiveMinCorrected | app.js:88-101 | with the whole unit removed, `5min` gives the placeholder title |
| Tasks.MaxOrder | app.js:229 | the reduce result is at least -1, bounds every order, and is -1 or one of the orders |
| Tasks.AddTask | app.js:227-246 | exactly one task is appended, the others are unchanged; it is open, of priority 1, not carried, with the given id, title, tags and estimate; its order is above every existing order and is at least 0 and one above the previous maximum |
| Tasks.FindIndex | app.js:250 | the first task with the id; none exactly when no task has it |
| Tasks.FindIndexSameIds | app.js:250 | the search depends on the ids alone |
| Tasks.Apply | app.js:252 | `Object.assign` takes each of title, done, priority and estimate from the update when it is given and keeps the old value otherwise; id, tags, creation time, origin and order are kept |
| Tasks.ApplyIdempotent | app.js:252 | assigning the same updates twice equals assigning them once; an empty update is the identity |
| Tasks.UpdateTask | app.js:248-256 | an unknown id leaves the record unchanged and returns nothing; otherwise only the first task with the id is merged, and it is returned |
| Tasks.Without | app.js:260 | a task stays exactly when its id differs |
| Tasks.DeleteTask | app.js:258-262 | exactly the tasks with the id go; the rest keep every field, order included; no task with the id is left |
| Tasks.WithoutAbsent | app.js:260 | deleting an id that no task has changes nothing |
| Tasks.DeleteTwice | app.js:258-262 | deleting twice is deleting once |
| Tasks.WithoutAppend | app.js:260 | the filter keeps the remaining tasks in their relative order |
| Tasks.SetOrder | app.js:266-269 | only the first task with the id gets the new order, and only its order changes; an unknown id changes nothing |
| Tasks.ReorderTasks | app.js:264-271 | the record keeps its date, length and the ids in place; each task keeps every field but `order`, which is the one the reorder rule (`ReorderedOrder`) gives it |
| Tasks.LastIndex | app.js:265 | the last position of the id in the list; none exactly when it is absent |
| Tasks.ReorderSpec | app.js:264-271 | each task's new order is the last index of its id in the list when it is the first task with that id and is listed; any other task keeps its order |
| Tasks.ReorderPermutation | app.js:264-271 | with distinct ids on both sides, the task listed at position k ends with order k |
| Tasks.JsRem | app.js:627 | JavaScript `%`: the remainder has the sign of the dividend, a smaller magnitude than the divisor, and differs from the dividend by a multiple of the divisor |
| Tasks.NextPriority | app.js:627 | from a non-negative priority the next lies in 1..3, and from 1..3 it differs from the current one |
| Tasks.PriorityCycle | app.js:627 | on 1..3 the cycle is 1, 2, 3, 1, of period 3 |
| Tasks.EstimateIndex | app.js:637 | `indexOf` on `ESTIMATE_VALUES`: -1 exactly for an unlisted value, otherwise the position of the value |
| Tasks.NextEstimate | app.js:637-639 | the next estimate is always listed; an unlisted value goes to null; a listed one moves one step along the list, wrapping round |
| Tasks.EstimateCycle | app.js:16 | the cycle null, 5, 15, 30, 60 has period 5 |
| Tasks.ToggleDone | app.js:614-621 | an unknown id changes nothing and returns no task; otherwise `done` of the first task with the id flips, every other task is unchanged, and the changed task is returned |
| Tasks.CyclePriority | app.js:623-631 | an unknown id changes nothing and returns no task; otherwise the priority of the first task with the id moves to the next, every other task is unchanged, and the changed task is returned |
| Tasks.CycleEstimate | app.js:633-642 | an unknown id changes nothing and returns no task; otherwise the estimate of the first task with the id moves to the next, every other task is unchanged, and the changed task is returned |
| Tasks.ToggleTwice | app.js:614-621 | toggling the same task twice restores the record |
| Tasks.PriorityThrice | app.js:623-631 | cycling a priority in 1..3 three times restores the record |
| Tasks.Incomplete | app.js:292 | a task is kept exactly when it is not done |
| DayStore.TodayRecord | app.js:219-225 | the stored record when today has one, otherwise an empty record under today's date |
| DayStore.Save | app.js:151-161 | the record is put under its own date; no other record and not the meta value change |
| DayStore.StoreAddTask | app.js:227-246 | today's record is written as `addTask` leaves it: one task more, the old ones as a prefix; no other day and not the last opened date changes |
| DayStore.HandleAddTask | app.js:603-612 | whitespace-only input adds nothing; otherwise exactly one task is appended after today's old tasks, built from `parseInput` as written on the trimmed input: open, with a non-empty title and a listed estimate; no other day and not the meta value change |
| DayStore.StoreUpdateTask | app.js:248-256 | an unknown id writes nothing; otherwise today's record is the updated one; no other day and not the last opened date changes |
| DayStore.StoreDeleteTask | app.js:258-262 | today's record is written as `deleteTask` leaves it, keeping exactly the tasks without the id; a missing record is written as an empty one; no other day and not the last opened date changes |
| DayStore.StoreReorder | app.js:264-271 | today's record keeps its ids in place, every task keeps every field but `order`, and the orders are the ones the reorder rule gives; no other day and not the last opened date changes |
| DayStore.StoreToggleDone | app.js:614-621 | an unknown id writes nothing, not even an empty record; otherwise today's record is the toggled one; no other day and not the meta value change |
| DayStore.StoreCyclePriority | app.js:623-631 | an unknown id writes nothing; otherwise today's record has the cycled priority; no other day and not the meta value change |
| DayStore.StoreCycleEstimate | app.js:633-642 | an unknown id writes nothing; otherwise today's record has the cycled estimate; no other day and not the meta value change |
| DayStore.StoreToggleTwice | app.js:614-621 | two toggles of the same task leave the whole store as it was |
| Rollover.Copies | app.js:305-318 | the k-th copy has the k-th fresh id, the source's title, priority, estimate and tags, is open, is stamped with the time and the origin date, and has order base + k |
| Rollover.AppendCopies | app.js:302-318 | appending the copies after the maximum order gives a carried list |
| Rollover.PerformRollover | app.js:287-321 | a missing source record or one without open tasks changes nothing; otherwise the target record is the old one (or an empty one) followed by one copy per open task; only the target key can change; meta is untouched |
| Rollover.RestoreIncompleteTasks | app.js:334-361 | the same copy into today's record from an archive date, with the same no-op cases; no day other than today and not the meta value change |
| Rollover.CheckAndPerformRollover | app.js:274-285 | the last opened date becomes today; the records roll over exactly when the previous date is set, non-empty and not today |
| Rollover.SecondCheckIsNoOp | app.js:274-285 | an immediate second check changes nothing |
| Rollover.CarriedOrders | app.js:302-318 | in a carried list every copy is ordered after every old task, and the copies are in increasing order |
| Rollover.CopiesOrderedAfter | app.js:302-318 | after a rollover the copies come after today's tasks in order, and in source order among themselves |
| Rollover.CarriedOpen | app.js:305-316 | every copy in a carried list is open and records its origin |
| Rollover.CopyNotMove | app.js:287-321 | the source record is unchanged, and every new task in the target is open and carried from the source date |
| Rollover.CarriedCover | app.js:293-318 | every open task of the source has a copy with its title, tags, priority and estimate |
| Rollover.OneCopyPerOpenTask | app.js:293-318 | the target gains exactly as many tasks as the source has open ones, and each open task has its copy |
| Rollover.CarriedIds | app.js:305-307 | fresh, distinct ids keep a carried list free of repeated ids |
| Rollover.CarriedIntoIds | app.js:301-318 | a target day carried as `performRollover` writes it keeps distinct ids when its own ids are distinct and the copies' ids are fresh |
| Rollover.CopiesKeepIdsDistinct | app.js:305-307 | with distinct fresh ids unused in the target, the target record keeps distinct ids |
| Retention.PurgeOldRecords | app.js:323-332 | the keys left are exactly the old keys among the recent dates, and the kept records are unchanged |
| Retention.PurgeBound | app.js:14 | with `ARCHIVE_DAYS` recent dates, at most seven records remain |
| Retention.PurgeIdempotent | app.js:323-332 | purging twice is purging once |
| Retention.Startup | app.js:882-885 | after the startup sequence the last opened date is today, and the records are exactly those the rollover check leaves whose dates are recent, unchanged |
| Retention.StartupKeepsCarried | app.js:882-885 | when today is recent, the purge keeps every task the rollover carried into today |
| Summary.SumMinutes | app.js:589-590 | with sane estimates the sum is non-negative and bounds each task's minutes |
| Summary.UpdateSummary | app.js:585-595 | the open count is the number of open tasks, at most the number of tasks and zero exactly when all are done; the remaining minutes are the sum over the open tasks and the total the sum over all; with sane estimates both are non-negative |
| Summary.SumAppend | app.js:589-590 | the sum over a concatenation is the sum of the sums |
| Summary.SumSplits | app.js:589-590 | the total is the remaining minutes plus the minutes of finished tasks |
| Summary.RemainingWithinTotal | app.js:589-590 | the remaining minutes never exceed the total |
| Summary.IncompleteAppend | app.js:586 | the open tasks of a concatenation are the open tasks of each part, in order |
| Summary.CountLabel | app.js:592 | the label is the decimal count followed by `件` |
| Summary.MinutesLabel | app.js:593-594 | a positive number of minutes reads back from the label before `m`; anything else shows `—` |
| Transfer.PutAll | app.js:403-405 | the keys after the puts are the old keys and the dates of the records |
| Transfer.PutAllFinds | app.js:403-405 | a record is found under its date unless a later record with that date replaced it |
| Transfer.ImportData | app.js:387-421 | a backup without a `days` array is refused and changes nothing; otherwise the store holds exactly the dates of the backup, each under the last record with that date, and the last opened date is the backup's exactly when that one is non-empty, unset otherwise |
| Transfer.ExportData | app.js:364-374 | given every stored key once, the backup lists one record per key, in key order, covering every stored record, with the last opened date |
| Transfer.ExportImportRoundTrip | app.js:364-421 | importing what was exported restores the store |
| Transfer.PutAllRestores | app.js:403-405 | putting the records of every key once into an empty store rebuilds the store |
| DragDrop.RemoveAt | app.js:723-727 | the list with one item lifted out, the rest shifted down, as a multiset one item fewer |
| DragDrop.InsertAt | app.js:723-727 | the list with the item placed at the position, the rest shifted up |
| DragDrop.HandleDrop | app.js:711-732 | a card dropped on itself does nothing; otherwise the dragged card lands at the target's index, the other cards keep their relative order, and no card is lost or repeated |
| DragDrop.MoveKeepsDistinct | app.js:723-727 | a move keeps a list free of repeated ids |
| DragDrop.DropAndSave | app.js:711-732 | a self-drop writes nothing; otherwise today's record keeps its ids and every field but `order` in place, and each order is the one the reorder rule gives for the dropped card list; no other day and not the last opened date changes |
| DragDrop.DroppedTaskTakesTargetOrder | app.js:711-732 | with distinct ids the dragged task ends with the order of the index it was dropped at |

## Left out

- IndexedDB: opening the database, transactions and error callbacks (app.js:115-216). The store is an in-memory map. A failed request is not modelled.
- The `updatedAt` stamp that `saveDayRecord` writes. It is a clock side effect and nothing reads it.
- `generateId` randomness and `crypto.randomUUID`. Ids come from a supplied oracle; properties that need fresh ids require them.
- `Date.now`, `getTodayString`, `formatTime` and the calendar arithmetic of `getRecentDates`. The current time, today's key and the recent dates are parameters.
- `Dates.FormatDate`: only four-digit years are covered by the length and round-trip properties. Other years are formatted but not characterised.
- JSON, Blob, URL and FileReader in export and import. A backup is the parsed object. The `version` and `exportedAt` fields are not modelled.
- Transfer.ImportData: only backups whose `days` elements are records with a string `date` are modelled. In the source, an element that is `null` or not an object throws at the `updatedAt` write (app.js:155), and a record without a `date` is refused by the put. Either way `importData` rejects after `clearAllData` (app.js:400, app.js:207-216) has emptied both stores, so the store keeps only the records put before the bad one and no meta. A `date` that is a number, a `Date` or an array is a valid key and is stored, under a key the string-keyed map cannot hold.
- The key order of `getAll`. It is the `keys` parameter of `ExportData`.
- Parsing.ParseEstimate: a number of more than about 300 digits makes `parseInt` return `Infinity`. No target is then strictly closer than `Infinity`, so the source returns null. The model's numbers are unbounded and snap such a value to 60.
- Characters are Unicode scalar values, not UTF-16 code units. The patterns used here are all in the Basic Multilingual Plane.
- `Tasks.NextPriority`: a non-integer or `NaN` priority is not modelled. Priorities are integers; a negative one is covered by the JavaScript remainder.
- `Tasks.Patch`: only the fields that the handlers and the title editor pass are modelled (title, done, priority, estimate).
- The title editor (`startEditing`, app.js:649-678), which is DOM input handling. Its save is `updateTask` with the trimmed text, as in `DayStore.StoreUpdateTask`.
- Rollover.Copies: every copy is stamped with the one `now` given. app.js:313 calls `Date.now()` once per copy, so in the source the stamps of one rollover can differ by the milliseconds the loop takes.
- All rendering, the tab switch, the archive chips, the confirm dialog, the panic wipe, the visibility listener, the demo data and the rest of `init` (app.js:424-937).
- DayStore.StoreToggleDone, DayStore.StoreCyclePriority, DayStore.StoreCycleEstimate and DragDrop.DropAndSave: each handler is one atomic read-modify-write. The source chains separate transactions: `toggleDone` reads today's record (app.js:615) and `updateTask` reads it again (app.js:249), and `handleDrop` calls `reorderTasks` without `await` (app.js:731). Two overlapping handlers can therefore lose an update, which the model does not show.
- The second purge that the visibility listener runs after midnight (app.js:802-817). It is the same `PurgeOldRecords`.

## Findings

| source | as written | input that shows it | evidently intended | confidence | as-written member | corrected member |
|---|---|---|---|---|---|---|
| app.js:95 | `/\d+\s*(m\|min\|分)/gi` tries `m` before `min`, so the removal cuts a `<n>min` phrase after the `m` | `5min` gives the title `in` instead of the placeholder | the whole unit word is removed (`min` before `m`) | not executed | Parsing.FiveMinTitle | Parsing.FiveMinCorrected |

`Parsing.AsWrittenKeepsIn` states the as-written behaviour for every
`<digits><spaces>min` phrase. `Parsing.WholeWordRemovesEstimate` states the
corrected one, and `Parsing.ParseInput` is the corrected `parseInput`, which
reads the unit as a whole word. `DayStore.HandleAddTask` models the handler
as it runs and therefore parses with `Parsing.ParseInputAsWritten`.
`parseEstimate` (app.js:66) has the same alternation, but there it is
harmless: only the digits are used.

=== FILE: dates.dfy ===
/** Calendar-day keys `YYYY-MM-DD`, as produced by `formatDate` from the
    local-time fields of a JavaScript `Date`. */
module Dates {
  import opened Wrappers
  import opened Text

  /** The three local-time fields `formatDate` reads: `getFullYear()`,
      `getMonth()` (zero-based) and `getDate()`. */
  datatype LocalDate = LocalDate(fullYear: nat, monthIndex: nat, dayOfMonth: nat)

  /** A date the runtime can produce with a four-digit year. */
  predicate ValidFourDigitDate(d: LocalDate) {
    1000 <= d.fullYear <= 9999 && d.monthIndex < 12 && 1 <= d.dayOfMonth <= 31
  }

  /** `formatDate`: the year as written by `String`, then the one-based
      month and the day, each zero-padded to two characters. */
  function FormatDate(d: LocalDate): (r: string)
    ensures ValidFourDigitDate(d) ==> |r| == 10 && r[4] == '-' && r[7] == '-'
  {
    var y := NatToString(d.fullYear);
    var m := PadStart2(NatToString(d.monthIndex + 1));
    var day := PadStart2(NatToString(d.dayOfMonth));
    if ValidFourDigitDate(d) then
      NatToStringLength4(d.fullYear);
      PaddedLength(d.monthIndex + 1);
      PaddedLength(d.dayOfMonth);
      var r := y + "-" + m + "-" + day;
      assert r[4] == '-' && r[7] == '-';
      r
    else
      y + "-" + m + "-" + day
  }

  /** Reads a key of the shape `DDDD-DD-DD` back into its fields. */
  function ParseDateKey(s: string): Option<LocalDate> {
    if |s| == 10 && s[4] == '-' && s[7] == '-'
       && AllDigits(s[..4]) && AllDigits(s[5..7]) && AllDigits(s[8..])
       && DecimalValue(s[5..7]) >= 1
    then Some(LocalDate(DecimalValue(s[..4]), DecimalValue(s[5..7]) - 1, DecimalValue(s[8..])))
    else None
  }

  /** Two-digit fields are exactly two characters once padded. */
  lemma PaddedLength(n: nat)
    requires n < 100
    ensures |PadStart2(NatToString(n))| == 2
  {
    NatToStringShort(n);
  }

  /** Zero-padding does not change the value `parseInt` reads. */
  lemma {:induction false} PaddedValue(n: nat)
    requires n < 100
    ensures AllDigits(PadStart2(NatToString(n)))
    ensures DecimalValue(PadStart2(NatToString(n))) == n
  {
    var s := NatToString(n);
    DecimalOfNatToString(n);
    NatToStringShort(n);
    if |s| < 2 {
      var p := PadStart2(s);
      assert p == ['0'] + s;
      assert p[..1] == ['0'];
      assert DecimalValue(p[..1]) == 0;
    }
  }

  /** Every four-digit-year date key parses back to the date it came
      from, so distinct days never share a key. */
  lemma FormatDateRoundTrip(d: LocalDate)
    requires ValidFourDigitDate(d)
    ensures ParseDateKey(FormatDate(d)) == Some(d)
  {
    var y := NatToString(d.fullYear);
    var m := PadStart2(NatToString(d.monthIndex + 1));
    var day := PadStart2(NatToString(d.dayOfMonth));
    NatToStringLength4(d.fullYear);
    DecimalOfNatToString(d.fullYear);
    PaddedLength(d.monthIndex + 1);
    PaddedLength(d.dayOfMonth);
    PaddedValue(d.monthIndex + 1);
    PaddedValue(d.dayOfMonth);
    KeyParts(y, m, day);
  }

  /** The three fields of a `DDDD-DD-DD` key, recovered by slicing. */
  lemma KeyParts(y: string, m: string, day: string)
    requires |y| == 4 && |m| == 2 && |day| == 2
    ensures var s := y + "-" + m + "-" + day;
      |s| == 10 && s[4] == '-' && s[7] == '-' && s[..4] == y && s[5..7] == m && s[8..] == day
  {
  }

  /** Formatting is injective on four-digit-year dates. */
  lemma FormatDateInjective(d1: LocalDate, d2: LocalDate)
    requires ValidFourDigitDate(d1) && ValidFourDigitDate(d2)
    requires FormatDate(d1) == FormatDate(d2)
    ensures d1 == d2
  {
    FormatDateRoundTrip(d1);
    FormatDateRoundTrip(d2);
  }
}

=== FILE: dragdrop.dfy ===
/** Reordering by drag and drop: the card list the drop leaves behind and
    the `reorderTasks` call that saves it. */
module DragDrop {
  import opened Wrappers
  import opened Tasks
  import opened DayStore

  predicate Distinct<T(==)>(xs: seq<T>) {
    forall i, j :: 0 <= i < j < |xs| ==> xs[i] != xs[j]
  }

  /** The list with the item at `i` lifted out. */
  function RemoveAt<T>(xs: seq<T>, i: nat): (r: seq<T>)
    requires i < |xs|
    ensures |r| == |xs| - 1
    ensures forall k :: 0 <= k < i ==> r[k] == xs[k]
    ensures forall k :: i <= k < |r| ==> r[k] == xs[k + 1]
    ensures multiset(r) + multiset{xs[i]} == multiset(xs)
  {
    assert xs == xs[..i] + [xs[i]] + xs[i + 1..];
    xs[..i] + xs[i + 1..]
  }

  /** The list with `x` placed at position `i`. */
  function InsertAt<T>(xs: seq<T>, i: nat, x: T): (r: seq<T>)
    requires i <= |xs|
    ensures |r| == |xs| + 1 && r[i] == x
    ensures forall k :: 0 <= k < i ==> r[k] == xs[k]
    ensures forall k :: i < k < |r| ==> r[k] == xs[k - 1]
    ensures multiset(r) == multiset(xs) + multiset{x}
  {
    assert xs == xs[..i] + xs[i..];
    xs[..i] + [x] + xs[i..]
  }

  /** `target.after(dragged)`, the target at `pos` of the lifted list. */
  function After<T>(xs: seq<T>, pos: nat, x: T): seq<T>
    requires pos < |xs|
  {
    InsertAt(xs, pos + 1, x)
  }

  /** `target.before(dragged)`, the target at `pos` of the lifted list. */
  function Before<T>(xs: seq<T>, pos: nat, x: T): seq<T>
    requires pos < |xs|
  {
    InsertAt(xs, pos, x)
  }

  /** `handleDrop`: the card at `d` dropped on the card at `t`. Dropping a
      card on itself does nothing; otherwise the dragged card goes after
      the target when it came from above it and before it otherwise, which
      in both cases leaves the dragged card at index `t` and every other
      card in its relative order. */
  function HandleDrop<T>(cards: seq<T>, d: nat, t: nat): (r: Option<seq<T>>)
    requires d < |cards| && t < |cards|
    ensures r.None? <==> d == t
    ensures r.Some? ==> |r.value| == |cards| && r.value[t] == cards[d]
    ensures r.Some? ==> RemoveAt(r.value, t) == RemoveAt(cards, d)
    ensures r.Some? ==> multiset(r.value) == multiset(cards)
  {
    if d == t then None
    else
      var rest := RemoveAt(cards, d);
      var moved := if d < t then After(rest, t - 1, cards[d]) else Before(rest, t, cards[d]);
      assert RemoveAt(moved, t) == rest;
      Some(moved)
  }

  /** Lifting out and inserting keep a list free of repeats. */
  lemma MoveKeepsDistinct<T>(cards: seq<T>, d: nat, t: nat)
    requires d < |cards| && t < |cards| && d != t && Distinct(cards)
    ensures Distinct(HandleDrop(cards, d, t).value)
  {
    var r := HandleDrop(cards, d, t).value;
    var rest := RemoveAt(cards, d);
    assert Distinct(rest) by {
      forall i, j | 0 <= i < j < |rest| ensures rest[i] != rest[j] {
        var i' := if i < d then i else i + 1;
        var j' := if j < d then j else j + 1;
        assert rest[i] == cards[i'] && rest[j] == cards[j'];
      }
    }
    assert cards[d] !in rest by {
      forall k | 0 <= k < |rest| ensures rest[k] != cards[d] {
        var k' := if k < d then k else k + 1;
        assert rest[k] == cards[k'];
      }
    }
    forall i, j | 0 <= i < j < |r| ensures r[i] != r[j] {
      if i == t {
        assert r[j] == rest[j - 1];
      } else if j == t {
        assert r[i] == rest[i];
      } else {
        var i' := if i < t then i else i - 1;
        var j' := if j < t then j else j - 1;
        assert r[i] == rest[i'] && r[j] == rest[j'];
      }
    }
  }

  /** The drop handler end to end: the new card order is saved through
      `reorderTasks`. */
  function DropAndSave(s: Store, today: string, cards: seq<string>, d: nat, t: nat): (r: Store)
    requires WellKeyed(s.days) && d < |cards| && t < |cards|
    ensures WellKeyed(r.days)
    ensures d == t ==> r == s
    ensures d != t ==> today in r.days && Ids(r.days[today].tasks) == Ids(TodayRecord(s, today).tasks)
    ensures d != t ==> forall j :: 0 <= j < |r.days[today].tasks| ==>
      r.days[today].tasks[j] == TodayRecord(s, today).tasks[j].(order := r.days[today].tasks[j].order) &&
      r.days[today].tasks[j].order == ReorderedOrder(TodayRecord(s, today).tasks, HandleDrop(cards, d, t).value, j)
    ensures forall k :: k != today ==> (k in r.days <==> k in s.days)
    ensures forall k :: k != today && k in s.days ==> r.days[k] == s.days[k]
    ensures r.lastOpened == s.lastOpened
  {
    match HandleDrop(cards, d, t)
    case None => s
    case Some(order) => StoreReorder(s, today, order)
  }

  /** With distinct ids and cards, the dragged task ends up with order `t`,
      the index it was dropped at. */
  lemma DroppedTaskTakesTargetOrder(s: Store, today: string, cards: seq<string>, d: nat, t: nat)
    requires WellKeyed(s.days) && d < |cards| && t < |cards| && d != t
    requires Distinct(cards) && DistinctIds(TodayRecord(s, today).tasks)
    requires FindIndex(TodayRecord(s, today).tasks, cards[d]).Some?
    ensures var r := DropAndSave(s, today, cards, d, t);
      today in r.days &&
      r.days[today].tasks[FindIndex(TodayRecord(s, today).tasks, cards[d]).value].order == t
  {
    var order := HandleDrop(cards, d, t).value;
    MoveKeepsDistinct(cards, d, t);
    var before := TodayRecord(s, today);
    assert order[t] == cards[d];
    ReorderPermutation(before.tasks, order, t);
  }
}

=== FILE: parsing.dfy ===
/** Quick-entry parsing: the free text typed into the task box becomes a
    title, a list of `#tags` and an optional time estimate.

    The regular expressions of the source are modelled as scanners that
    cut the input into tokens, left to right, exactly where the global
    regular-expression search finds its matches; rendering the tokens
    gives the input back. */
module Parsing {
  import opened Wrappers
  import opened Text

  /** A piece of scanned input: a character no match covers, a `#word`
      match, or a `<digits><spaces><unit>` match. */
  datatype Token = Lit(c: char) | Tag(word: string) | Estimate(digits: string, gap: string, unit: string)

  function TokenText(t: Token): string {
    match t
    case Lit(c) => [c]
    case Tag(w) => ['#'] + w
    case Estimate(d, g, u) => d + g + u
  }

  /** The text a token sequence was cut from. */
  function Render(ts: seq<Token>): string
    decreases |ts|
  {
    if ts == [] then [] else TokenText(ts[0]) + Render(ts[1..])
  }

  lemma RenderCons(t: Token, rest: seq<Token>)
    ensures Render([t] + rest) == TokenText(t) + Render(rest)
  {
    assert ([t] + rest)[1..] == rest;
  }

  /** The text left once every match is replaced by the empty string. */
  function Plain(ts: seq<Token>): string
    decreases |ts|
  {
    if ts == [] then []
    else if ts[0].Lit? then [ts[0].c] + Plain(ts[1..])
    else Plain(ts[1..])
  }

  /** Replacing matches by nothing never lengthens the text. */
  lemma {:induction false} PlainShorter(ts: seq<Token>)
    ensures |Plain(ts)| <= |Render(ts)|
    decreases |ts|
  {
    if ts != [] {
      PlainShorter(ts[1..]);
    }
  }

  /** Stripping distributes over concatenation of token sequences. */
  lemma {:induction false} PlainAppend(a: seq<Token>, b: seq<Token>)
    ensures Plain(a + b) == Plain(a) + Plain(b)
    decreases |a|
  {
    if a != [] {
      assert (a + b)[0] == a[0];
      assert (a + b)[1..] == a[1..] + b;
      PlainAppend(a[1..], b);
      if a[0].Lit? {
        assert Plain(a + b) == [a[0].c] + Plain(a[1..] + b);
        assert Plain(a) == [a[0].c] + Plain(a[1..]);
        assert [a[0].c] + (Plain(a[1..]) + Plain(b)) == ([a[0].c] + Plain(a[1..])) + Plain(b);
      } else {
        assert Plain(a + b) == Plain(a[1..] + b);
        assert Plain(a) == Plain(a[1..]);
      }
    } else {
      assert a + b == b;
    }
  }

  // ---------------------------------------------------------------------
  // Tags: the pattern `#[^\s#]+`, searched globally.

  /** The characters `[^\s#]`. */
  predicate IsTagChar(c: char) {
    !IsSpace(c) && c != '#'
  }

  predicate AllTagChars(w: string) {
    forall k :: 0 <= k < |w| ==> IsTagChar(w[k])
  }

  predicate IsTagWord(w: string) {
    |w| > 0 && AllTagChars(w)
  }

  /** How far the greedy `[^\s#]+` reaches from the start of `s`. */
  function TagRun(s: string): (n: nat)
    ensures n <= |s|
    ensures forall k :: 0 <= k < n ==> IsTagChar(s[k])
    ensures n < |s| ==> !IsTagChar(s[n])
    decreases |s|
  {
    if |s| > 0 && IsTagChar(s[0]) then 1 + TagRun(s[1..]) else 0
  }

  /** Tokens of a tag scan: every tag is a non-empty run of tag characters. */
  predicate TagTokens(ts: seq<Token>) {
    forall i :: 0 <= i < |ts| ==> !ts[i].Estimate? && (ts[i].Tag? ==> IsTagWord(ts[i].word))
  }

  /** No match was missed or cut short: neither a tag nor an unmatched `#`
      is directly followed by a tag character left as plain text. */
  predicate TagsMaximal(ts: seq<Token>) {
    forall i :: 0 <= i < |ts| - 1 && (ts[i].Tag? || ts[i] == Lit('#')) && ts[i + 1].Lit? ==>
      !IsTagChar(ts[i + 1].c)
  }

  /** The global search for `#[^\s#]+`: at each position, a `#` followed by
      at least one tag character starts a match, which takes the longest run
      of tag characters; otherwise the search moves one character on. */
  function TagScan(s: string): (r: seq<Token>)
    ensures TagTokens(r) && TagsMaximal(r)
    ensures |s| > 0 ==> |r| > 0 && (r[0].Lit? ==> r[0].c == s[0])
    decreases |s|
  {
    if |s| == 0 then []
    else if s[0] == '#' && |s| > 1 && IsTagChar(s[1]) then
      var n := TagRun(s[1..]);
      var rest := TagScan(s[1 + n..]);
      var r := [Tag(s[1..1 + n])] + rest;
      assert r[1..] == rest;
      r
    else
      var rest := TagScan(s[1..]);
      var r := [Lit(s[0])] + rest;
      assert r[1..] == rest;
      r
  }

  /** Cutting into tag tokens loses nothing: the tokens render back to
      the input. */
  lemma {:induction false} TagScanRenders(s: string)
    ensures Render(TagScan(s)) == s
    decreases |s|
  {
    if |s| > 0 {
      var r := TagScan(s);
      if s[0] == '#' && |s| > 1 && IsTagChar(s[1]) {
        var n := TagRun(s[1..]);
        TagScanRenders(s[1 + n..]);
        RenderCons(Tag(s[1..1 + n]), TagScan(s[1 + n..]));
        SliceJoin(s, 0, 1, 1 + n);
        SplitAt(s, 1 + n);
      } else {
        TagScanRenders(s[1..]);
        RenderCons(Lit(s[0]), TagScan(s[1..]));
        SplitAt(s, 1);
      }
    }
  }

  /** The words of the tag tokens, in order. */
  function TagWords(ts: seq<Token>): (r: seq<string>)
    requires TagTokens(ts)
    ensures forall i :: 0 <= i < |r| ==> IsTagWord(r[i])
    ensures forall w :: w in r <==> Tag(w) in ts
    ensures |r| <= |ts|
    decreases |ts|
  {
    if ts == [] then []
    else
      assert ts == [ts[0]] + ts[1..];
      if ts[0].Tag? then [ts[0].word] + TagWords(ts[1..])
      else TagWords(ts[1..])
  }

  /** The words of two token sequences, one after the other. */
  lemma {:induction false} TagWordsAppend(a: seq<Token>, b: seq<Token>)
    requires TagTokens(a) && TagTokens(b)
    ensures TagTokens(a + b) && TagWords(a + b) == TagWords(a) + TagWords(b)
    decreases |a|
  {
    if a == [] {
      assert a + b == b;
    } else {
      assert (a + b)[0] == a[0];
      assert (a + b)[1..] == a[1..] + b;
      TagWordsAppend(a[1..], b);
      if a[0].Tag? {
        assert TagWords(a + b) == [a[0].word] + TagWords(a[1..] + b);
        assert [a[0].word] + (TagWords(a[1..]) + TagWords(b)) == ([a[0].word] + TagWords(a[1..])) + TagWords(b);
      }
    }
  }

  /** `parseTags`: the text after the `#` of every match of `#[^\s#]+`. */
  function ParseTags(s: string): (r: seq<string>)
    ensures forall i :: 0 <= i < |r| ==> IsTagWord(r[i])
  {
    TagWords(TagScan(s))
  }

  /** `input.replace(/#[^\s#]+/g, '')`. */
  function StripTags(s: string): (r: string)
    ensures |r| <= |s|
  {
    PlainShorter(TagScan(s));
    TagScanRenders(s);
    Plain(TagScan(s))
  }

  /** Text without `#` has no tags, and stripping leaves it alone. */
  lemma {:induction false} NoHashNoTags(s: string)
    requires forall k :: 0 <= k < |s| ==> s[k] != '#'
    ensures ParseTags(s) == [] && StripTags(s) == s
    decreases |s|
  {
    if |s| > 0 {
      NoHashNoTags(s[1..]);
      var r := TagScan(s);
      assert r == [Lit(s[0])] + TagScan(s[1..]);
      assert r[1..] == TagScan(s[1..]);
    }
  }

  /** `[^\s#]+` stops exactly where the tag characters stop. */
  lemma {:induction false} TagRunConcat(w: string, rest: string)
    requires AllTagChars(w) && (|rest| > 0 ==> !IsTagChar(rest[0]))
    ensures TagRun(w + rest) == |w|
    decreases |w|
  {
    if |w| == 0 {
      assert w + rest == rest;
    } else {
      assert (w + rest)[1..] == w[1..] + rest;
      TagRunConcat(w[1..], rest);
    }
  }

  /** A `#` followed by a whole word of tag characters yields that word,
      and the search goes on after it. */
  lemma ParseTagsTag(w: string, rest: string)
    requires IsTagWord(w) && (|rest| > 0 ==> !IsTagChar(rest[0]))
    ensures ParseTags(['#'] + w + rest) == [w] + ParseTags(rest)
  {
    var s := ['#'] + w + rest;
    assert s[0] == '#' && s[1] == w[0];
    assert s[1..] == w + rest;
    TagRunConcat(w, rest);
    assert s[1..1 + |w|] == w && s[1 + |w|..] == rest;
    var ts := TagScan(s);
    assert ts == [Tag(w)] + TagScan(rest);
    assert ts[1..] == TagScan(rest);
  }

  /** A `#` with no tag character after it is plain text. */
  lemma ParseTagsBareHash(rest: string)
    requires |rest| > 0 ==> !IsTagChar(rest[0])
    ensures ParseTags(['#'] + rest) == ParseTags(rest)
  {
    var s := ['#'] + rest;
    assert s[1..] == rest;
    var ts := TagScan(s);
    assert ts == [Lit('#')] + TagScan(rest);
    assert ts[1..] == TagScan(rest);
  }

  /** Any other character is plain text. */
  lemma ParseTagsLit(c: char, rest: string)
    requires c != '#'
    ensures ParseTags([c] + rest) == ParseTags(rest)
  {
    var s := [c] + rest;
    assert s[1..] == rest;
    var ts := TagScan(s);
    assert ts == [Lit(c)] + TagScan(rest);
    assert ts[1..] == TagScan(rest);
  }

  // ---------------------------------------------------------------------
  // Estimates: the pattern `(\d+)\s*(m|min|分)`, case-insensitive.

  /** How the unit alternative `(m|min|分)` is resolved. The source lists
      `m` first, so a match never takes the longer `min`; `WholeWord` is
      the evidently intended reading that consumes `min` entirely. */
  datatype UnitRule = AsWritten | WholeWord

  predicate IsM(c: char) { c == 'm' || c == 'M' }
  predicate IsI(c: char) { c == 'i' || c == 'I' }
  predicate IsN(c: char) { c == 'n' || c == 'N' }

  /** The unit `分` ("minute"). */
  const Fun: char := '\U{5206}'

  /** `min` in any letter case. */
  predicate StartsWithMin(s: string) {
    |s| >= 3 && IsM(s[0]) && IsI(s[1]) && IsN(s[2])
  }

  predicate IsUnitWord(u: string) {
    u == [Fun] || (|u| == 1 && IsM(u[0])) || (|u| == 3 && StartsWithMin(u))
  }

  /** How far the greedy `\d+` reaches from the start of `s`. */
  function DigitRun(s: string): (n: nat)
    ensures n <= |s|
    ensures forall k :: 0 <= k < n ==> IsDigit(s[k])
    ensures n < |s| ==> !IsDigit(s[n])
    decreases |s|
  {
    if |s| > 0 && IsDigit(s[0]) then 1 + DigitRun(s[1..]) else 0
  }

  /** The digits `\d+` captures at the start of `s`. */
  function LeadingDigits(s: string): (r: string)
    ensures AllDigits(r) && r == s[..DigitRun(s)]
  {
    s[..DigitRun(s)]
  }

  /** How far the greedy `\s*` reaches from the start of `s`. */
  function SpaceRun(s: string): (n: nat)
    ensures n <= |s|
    ensures forall k :: 0 <= k < n ==> IsSpace(s[k])
    ensures n < |s| ==> !IsSpace(s[n])
    decreases |s|
  {
    if |s| > 0 && IsSpace(s[0]) then 1 + SpaceRun(s[1..]) else 0
  }

  /** The length of the unit matched at the start of `s`, 0 for none. */
  function UnitLength(s: string, rule: UnitRule): (n: nat)
    ensures n <= |s| && (n > 0 ==> IsUnitWord(s[..n]))
    ensures n > 0 <==> |s| > 0 && (IsM(s[0]) || s[0] == Fun)
  {
    if rule == WholeWord && StartsWithMin(s) then 3
    else if |s| > 0 && (IsM(s[0]) || s[0] == Fun) then 1
    else 0
  }

  /** The length of the match of `\d+\s*(unit)` at the start of `s`, or
      0. The greedy `\d+` takes the whole run of digits and `\s*` all
      following whitespace; the match succeeds exactly when a unit comes
      next, since backtracking to a shorter run or gap leaves a digit or a
      space next instead. */
  function MatchAt(s: string, rule: UnitRule): (n: nat)
    ensures n <= |s|
    ensures n > 0 ==> IsDigit(s[0])
  {
    var d := DigitRun(s);
    var w := SpaceRun(s[d..]);
    var u := UnitLength(s[d + w..], rule);
    if d > 0 && u > 0 then d + w + u else 0
  }

  /** The token for the match at the start of `s`. */
  function EstimateToken(s: string, rule: UnitRule): (t: Token)
    requires MatchAt(s, rule) > 0
    ensures WellFormedEstimate(t) && t.Estimate?
    ensures TokenText(t) == s[..MatchAt(s, rule)]
    ensures t.digits == LeadingDigits(s)
  {
    var n := MatchAt(s, rule);
    var d := DigitRun(s);
    var w := SpaceRun(s[d..]);
    assert s[d..][..w] == s[d..d + w];
    assert s[d + w..][..n - d - w] == s[d + w..n];
    PrefixJoin3(s, d, d + w, n);
    Estimate(s[..d], s[d..d + w], s[d + w..n])
  }

  /** A prefix cut at two points is its three pieces. */
  lemma PrefixJoin3(s: string, i: nat, j: nat, n: nat)
    requires i <= j <= n <= |s|
    ensures s[..i] + s[i..j] + s[j..n] == s[..n]
  {
    var r := s[..i] + s[i..j] + s[j..n];
    assert |r| == n;
    forall k | 0 <= k < n
      ensures r[k] == s[k]
    {
      if k < i {
        assert r[k] == s[..i][k];
      } else if k < j {
        assert r[k] == s[i..j][k - i];
      } else {
        assert r[k] == s[j..n][k - j];
      }
    }
  }

  /** The global search for `\d+\s*(m|min|分)`: a match is taken where
      one starts, otherwise the search moves one character on. */
  function EstimateScan(s: string, rule: UnitRule): (r: seq<Token>)
    ensures |s| > 0 ==> |r| > 0 && (MatchAt(s, rule) == 0 ==> r[0] == Lit(s[0]))
    decreases |s|
  {
    if |s| == 0 then []
    else if MatchAt(s, rule) > 0 then
      var n := MatchAt(s, rule);
      var rest := EstimateScan(s[n..], rule);
      var r := [EstimateToken(s, rule)] + rest;
      assert r[1..] == rest;
      r
    else
      var rest := EstimateScan(s[1..], rule);
      var r := [Lit(s[0])] + rest;
      assert r[1..] == rest;
      r
  }

  /** Cutting into estimate tokens loses nothing: the tokens render back
      to the input. */
  lemma {:induction false} EstimateScanRenders(s: string, rule: UnitRule)
    ensures Render(EstimateScan(s, rule)) == s
    decreases |s|
  {
    if |s| > 0 {
      var r := EstimateScan(s, rule);
      var n := MatchAt(s, rule);
      if n > 0 {
        EstimateScanRenders(s[n..], rule);
        RenderCons(EstimateToken(s, rule), EstimateScan(s[n..], rule));
        SplitAt(s, n);
      } else {
        EstimateScanRenders(s[1..], rule);
        RenderCons(Lit(s[0]), EstimateScan(s[1..], rule));
        SplitAt(s, 1);
      }
    }
  }

  predicate WellFormedEstimate(t: Token) {
    t.Estimate? ==> |t.digits| > 0 && AllDigits(t.digits) && AllSpaces(t.gap) && IsUnitWord(t.unit)
  }

  /** Tokens of an estimate scan: no tags, and every estimate is digits,
      spaces and a unit. */
  predicate EstimateTokens(ts: seq<Token>) {
    forall i :: 0 <= i < |ts| ==> !ts[i].Tag? && WellFormedEstimate(ts[i])
  }

  /** Every estimate token of a scan is digits, spaces and a unit. */
  lemma {:induction false} EstimateScanWellFormed(s: string, rule: UnitRule)
    ensures EstimateTokens(EstimateScan(s, rule))
    decreases |s|
  {
    if |s| > 0 {
      var n := MatchAt(s, rule);
      var r := EstimateScan(s, rule);
      if n > 0 {
        EstimateScanWellFormed(s[n..], rule);
        assert r[1..] == EstimateScan(s[n..], rule);
      } else {
        EstimateScanWellFormed(s[1..], rule);
        assert r[1..] == EstimateScan(s[1..], rule);
      }
    }
  }

  /** A digit left as plain text is never directly followed by a match. */
  predicate EstimatesMaximal(ts: seq<Token>) {
    forall i :: 0 <= i < |ts| - 1 && ts[i].Lit? && IsDigit(ts[i].c) ==> !ts[i + 1].Estimate?
  }

  /** Inside a run of digits a failed match stays failed one digit later. */
  lemma MatchFailsAlongRun(s: string, rule: UnitRule)
    requires |s| > 1 && IsDigit(s[0]) && IsDigit(s[1]) && MatchAt(s, rule) == 0
    ensures MatchAt(s[1..], rule) == 0
  {
    assert DigitRun(s[1..]) == DigitRun(s) - 1;
    assert s[1..][DigitRun(s) - 1..] == s[DigitRun(s)..];
  }

  /** Matches start at the first digit of a run, as the leftmost search
      finds them. */
  lemma {:induction false} EstimateScanMaximal(s: string, rule: UnitRule)
    ensures EstimatesMaximal(EstimateScan(s, rule))
    decreases |s|
  {
    if |s| > 0 {
      var n := MatchAt(s, rule);
      var r := EstimateScan(s, rule);
      if n > 0 {
        EstimateScanMaximal(s[n..], rule);
        assert r[1..] == EstimateScan(s[n..], rule);
      } else {
        EstimateScanMaximal(s[1..], rule);
        var rest := EstimateScan(s[1..], rule);
        assert r[1..] == rest;
        if IsDigit(s[0]) && |s| > 1 {
          if IsDigit(s[1]) {
            MatchFailsAlongRun(s, rule);
          } else {
            assert MatchAt(s[1..], rule) == 0;
          }
          assert rest[0] == Lit(s[1]);
        }
      }
    }
  }

  /** The digits of the first estimate token, if any. */
  function FirstEstimate(ts: seq<Token>): (r: Option<string>)
    ensures r.None? <==> forall i :: 0 <= i < |ts| ==> !ts[i].Estimate?
    ensures r.Some? ==>
      exists i :: 0 <= i < |ts| && ts[i].Estimate? && ts[i].digits == r.value &&
        (forall k :: 0 <= k < i ==> !ts[k].Estimate?)
    decreases |ts|
  {
    if ts == [] then None
    else if ts[0].Estimate? then Some(ts[0].digits)
    else
      var r := FirstEstimate(ts[1..]);
      assert forall i :: 1 <= i < |ts| ==> ts[i] == ts[1..][i - 1];
      r
  }

  /** The estimates a task may carry besides none, in the order the
      snapping loop visits them. */
  const SnapTargets: seq<int> := [5, 15, 30, 60]

  function Abs(x: int): nat {
    if x < 0 then -x else x
  }

  /** The snapping loop of `parseEstimate`: walks the targets keeping the
      closest so far; a later target replaces it only when strictly closer
      (`None` stands for the initial `null` at distance `Infinity`). */
  function ClosestFrom(targets: seq<int>, value: int, closest: Option<int>): Option<int>
    decreases |targets|
  {
    if targets == [] then closest
    else if closest.None? || Abs(targets[0] - value) < Abs(closest.value - value) then
      ClosestFrom(targets[1..], value, Some(targets[0]))
    else
      ClosestFrom(targets[1..], value, closest)
  }

  /** The snapping loop run on the four targets, step by step: the
      midpoints 10, 22.5 and 45 split the line, ties going down. */
  lemma SnapSteps(value: int)
    ensures ClosestFrom(SnapTargets, value, None) ==
      Some(if value <= 10 then 5 else if value <= 22 then 15 else if value <= 45 then 30 else 60)
  {
    var c1: Option<int> := Some(5);
    assert ClosestFrom(SnapTargets, value, None) == ClosestFrom([15, 30, 60], value, c1);
    var c2: Option<int> := if Abs(15 - value) < Abs(5 - value) then Some(15) else c1;
    assert ClosestFrom([15, 30, 60], value, c1) == ClosestFrom([30, 60], value, c2);
    var c3: Option<int> := if Abs(30 - value) < Abs(c2.value - value) then Some(30) else c2;
    assert ClosestFrom([30, 60], value, c2) == ClosestFrom([60], value, c3);
    var c4: Option<int> := if Abs(60 - value) < Abs(c3.value - value) then Some(60) else c3;
    assert ClosestFrom([60], value, c3) == ClosestFrom([], value, c4);
  }

  /** The snapped estimate: one of 5, 15, 30, 60, as close to `value` as
      any of them, and on a tie the smaller one. */
  function Snap(value: int): (r: int)
    ensures r in SnapTargets
    ensures forall v :: v in SnapTargets ==> Abs(r - value) <= Abs(v - value)
    ensures forall v :: v in SnapTargets && v < r ==> Abs(r - value) < Abs(v - value)
  {
    SnapSteps(value);
    ClosestFrom(SnapTargets, value, None).value
  }

  /** `parseEstimate`: no match gives `null`; otherwise the number of the
      first match, snapped. */
  function ParseEstimate(s: string): (r: Option<int>)
    ensures r.Some? ==> r.value in SnapTargets
  {
    match FirstEstimate(EstimateScan(s, AsWritten))
    case None => None
    case Some(ds) =>
      EstimateScanWellFormed(s, AsWritten);
      Some(Snap(DecimalValue(ds)))
  }

  /** A match of the estimate pattern starts at position `p` of `s`. */
  predicate StartsMatch(s: string, p: nat, rule: UnitRule)
    requires p <= |s|
  {
    MatchAt(s[p..], rule) > 0
  }

  /** `parseEstimate` is `null` exactly when no estimate phrase occurs:
      no estimate token is scanned, and no position of the input starts a
      match. */
  lemma ParseEstimateNone(s: string)
    ensures ParseEstimate(s).None? <==>
      forall i :: 0 <= i < |EstimateScan(s, AsWritten)| ==> !EstimateScan(s, AsWritten)[i].Estimate?
    ensures ParseEstimate(s).None? <==> forall p :: 0 <= p < |s| ==> !StartsMatch(s, p, AsWritten)
  {
    ScanFindsNone(s, AsWritten);
  }

  /** Otherwise `parseEstimate` reads the digits of the leftmost match and
      snaps their value. */
  lemma ParseEstimateFirst(s: string, p: nat)
    requires p < |s| && StartsMatch(s, p, AsWritten)
    requires forall q :: 0 <= q < p ==> !StartsMatch(s, q, AsWritten)
    ensures ParseEstimate(s) == Some(Snap(DecimalValue(LeadingDigits(s[p..]))))
  {
    ScanFindsFirst(s, AsWritten, p);
  }

  /** The scan finds no estimate exactly when no position starts a match. */
  lemma {:induction false} ScanFindsNone(s: string, rule: UnitRule)
    ensures FirstEstimate(EstimateScan(s, rule)).None? <==> forall p :: 0 <= p < |s| ==> !StartsMatch(s, p, rule)
    decreases |s|
  {
    if |s| > 0 {
      assert s[0..] == s;
      if MatchAt(s, rule) > 0 {
        ScanMatch(s, rule);
        var ts := EstimateScan(s, rule);
        assert ts[0].Estimate?;
        assert StartsMatch(s, 0, rule);
      } else {
        ScanFindsNone(s[1..], rule);
        ScanSkipsLit(s, rule);
        ShiftedMatches(s, rule);
      }
    }
  }

  /** Where no match starts, the scan's first estimate is that of the
      rest of the input. */
  lemma ScanSkipsLit(s: string, rule: UnitRule)
    requires |s| > 0 && MatchAt(s, rule) == 0
    ensures FirstEstimate(EstimateScan(s, rule)) == FirstEstimate(EstimateScan(s[1..], rule))
  {
    var rest := EstimateScan(s[1..], rule);
    ScanLit(s, rule);
    assert ([Lit(s[0])] + rest)[1..] == rest;
  }

  /** A match starts at a position of the tail exactly when one starts
      one place further on in the whole. */
  lemma StartsMatchShift(s: string, p: nat, rule: UnitRule)
    requires 1 <= |s| && p < |s|
    ensures StartsMatch(s[1..], p, rule) <==> StartsMatch(s, p + 1, rule)
  {
    assert s[1..][p..] == s[p + 1..];
  }

  /** No position starts a match exactly when the first does not and no
      position of the rest does. */
  lemma ShiftedMatches(s: string, rule: UnitRule)
    requires |s| > 0
    ensures (forall p :: 0 <= p < |s| ==> !StartsMatch(s, p, rule)) <==>
      !StartsMatch(s, 0, rule) && forall p :: 0 <= p < |s| - 1 ==> !StartsMatch(s[1..], p, rule)
  {
    if forall p :: 0 <= p < |s| ==> !StartsMatch(s, p, rule) {
      forall p | 0 <= p < |s| - 1 ensures !StartsMatch(s[1..], p, rule) {
        StartsMatchShift(s, p, rule);
        assert !StartsMatch(s, p + 1, rule);
      }
    }
    if !StartsMatch(s, 0, rule) && forall p :: 0 <= p < |s| - 1 ==> !StartsMatch(s[1..], p, rule) {
      forall p | 0 <= p < |s| ensures !StartsMatch(s, p, rule) {
        if p > 0 {
          StartsMatchShift(s, p - 1, rule);
          assert !StartsMatch(s[1..], p - 1, rule);
        }
      }
    }
  }

  /** The first estimate the scan finds is the leftmost match, and it
      carries that match's whole run of digits. */
  lemma {:induction false} ScanFindsFirst(s: string, rule: UnitRule, p: nat)
    requires p < |s| && StartsMatch(s, p, rule)
    requires forall q :: 0 <= q < p ==> !StartsMatch(s, q, rule)
    ensures FirstEstimate(EstimateScan(s, rule)) == Some(LeadingDigits(s[p..]))
    decreases p
  {
    assert s[0..] == s;
    if p == 0 {
      ScanMatch(s, rule);
      var ts := EstimateScan(s, rule);
      assert ts[0] == EstimateToken(s, rule);
    } else {
      assert !StartsMatch(s, 0, rule);
      ScanSkipsLit(s, rule);
      NoEarlierShift(s, p, rule);
      ScanFindsFirst(s[1..], rule, p - 1);
      SliceShift(s, p, 0);
    }
  }

  /** The leftmost match, seen from the tail. */
  lemma NoEarlierShift(s: string, p: nat, rule: UnitRule)
    requires 1 <= p < |s| && StartsMatch(s, p, rule)
    requires forall q :: 0 <= q < p ==> !StartsMatch(s, q, rule)
    ensures StartsMatch(s[1..], p - 1, rule)
    ensures forall q :: 0 <= q < p - 1 ==> !StartsMatch(s[1..], q, rule)
  {
    StartsMatchShift(s, p - 1, rule);
    forall q | 0 <= q < p - 1 ensures !StartsMatch(s[1..], q, rule) {
      StartsMatchShift(s, q, rule);
      assert !StartsMatch(s, q + 1, rule);
    }
  }

  /** A slice of the tail is the slice of the whole one place further on. */
  lemma SliceShift<T>(s: seq<T>, p: nat, d: nat)
    requires 1 <= p && p + d <= |s|
    ensures s[1..][p - 1..] == s[p..] && s[1..][p - 1..p - 1 + d] == s[p..p + d]
  {
  }

  /** The scan is the leftmost search: where it leaves a character as plain
      text the remaining input starts no match, and where it takes an
      estimate the remaining input starts a match of exactly that text. */
  lemma {:induction false} EstimateScanLeftmost(s: string, rule: UnitRule)
    ensures var ts := EstimateScan(s, rule);
      forall i :: 0 <= i < |ts| ==>
        MatchAt(Render(ts[i..]), rule) == if ts[i].Lit? then 0 else |TokenText(ts[i])|
    decreases |s|
  {
    var ts := EstimateScan(s, rule);
    if |s| > 0 {
      var n := MatchAt(s, rule);
      var m := if n > 0 then n else 1;
      var rest := EstimateScan(s[m..], rule);
      if n > 0 { ScanMatch(s, rule); } else { ScanLit(s, rule); }
      assert ts[1..] == rest;
      EstimateScanLeftmost(s[m..], rule);
      forall i | 0 <= i < |ts|
        ensures MatchAt(Render(ts[i..]), rule) == if ts[i].Lit? then 0 else |TokenText(ts[i])|
      {
        if i == 0 {
          assert ts[0..] == ts;
          EstimateScanRenders(s, rule);
        } else {
          assert ts[i..] == rest[i - 1..];
        }
      }
    }
  }

  /** `.replace(/\d+\s*(m|min|分)/gi, '')` under the given unit rule. */
  function StripEstimates(s: string, rule: UnitRule): (r: string)
    ensures |r| <= |s|
  {
    PlainShorter(EstimateScan(s, rule));
    EstimateScanRenders(s, rule);
    Plain(EstimateScan(s, rule))
  }

  // ---------------------------------------------------------------------
  // The whole entry line.

  /** The placeholder title `（無題）` ("untitled"). */
  const Untitled: string := "\U{FF08}\U{7121}\U{984C}\U{FF09}"

  datatype ParsedInput = ParsedInput(title: string, tags: seq<string>, estimate: Option<int>)

  /** The title is the input with tag matches and then estimate matches
      removed, trimmed, or the placeholder when nothing is left; tags and
      estimate are read from the raw input. */
  function ParseInputWith(input: string, rule: UnitRule): (r: ParsedInput)
    ensures r.title != []
    ensures r.title == Untitled || (!IsSpace(r.title[0]) && !IsSpace(r.title[|r.title| - 1]))
    ensures AllSpaces(StripEstimates(StripTags(input), rule)) ==> r.title == Untitled
    ensures !AllSpaces(StripEstimates(StripTags(input), rule)) ==> r.title == Trim(StripEstimates(StripTags(input), rule))
    ensures !AllSpaces(StripEstimates(StripTags(input), rule)) ==> |r.title| <= |input|
    ensures forall i :: 0 <= i < |r.tags| ==> IsTagWord(r.tags[i])
    ensures r.estimate.Some? ==> r.estimate.value in SnapTargets
  {
    var stripped := Trim(StripEstimates(StripTags(input), rule));
    assert Untitled[0] == '\U{FF08}';
    TrimShorter(StripEstimates(StripTags(input), rule));
    ParsedInput(if stripped == [] then Untitled else stripped, ParseTags(input), ParseEstimate(input))
  }

  /** `parseInput` exactly as written. */
  function ParseInputAsWritten(input: string): (r: ParsedInput)
    ensures r.title != [] && r.tags == ParseTags(input) && r.estimate == ParseEstimate(input)
  {
    ParseInputWith(input, AsWritten)
  }

  /** `parseInput` with the unit alternative read as a whole word, so that
      `30min` leaves nothing of itself in the title. */
  function ParseInput(input: string): (r: ParsedInput)
    ensures r.title != [] && r.tags == ParseTags(input) && r.estimate == ParseEstimate(input)
    ensures r.estimate.Some? ==> r.estimate.value in SnapTargets
  {
    ParseInputWith(input, WholeWord)
  }

  // ---------------------------------------------------------------------
  // The unit-alternative discrepancy.

  /** In digits, a gap and a unit, `\d+` takes the digits. */
  lemma PhraseDigits(ds: string, g: string, u: string, rest: string)
    requires AllDigits(ds) && AllSpaces(g) && |u| > 0 && (IsM(u[0]) || u[0] == Fun)
    ensures DigitRun(ds + g + u + rest) == |ds|
  {
    var tail := g + u + rest;
    assert ds + g + u + rest == ds + tail;
    assert tail[0] == if |g| > 0 then g[0] else u[0];
    DigitRunConcat(ds, tail);
  }

  /** ... and `\s*` the gap after them, leaving the unit. */
  lemma PhraseGap(ds: string, g: string, u: string, rest: string)
    requires AllSpaces(g) && |u| > 0 && (IsM(u[0]) || u[0] == Fun)
    ensures SpaceRun((ds + g + u + rest)[|ds|..]) == |g|
    ensures (ds + g + u + rest)[|ds| + |g|..] == u + rest
  {
    var s := ds + g + u + rest;
    assert s[|ds|..] == g + (u + rest);
    SpaceRunConcat(g, u + rest);
  }

  /** Digits, a gap and a unit make a match of exactly that length. */
  lemma MatchAtPhrase(ds: string, g: string, u: string, rest: string, rule: UnitRule)
    requires |ds| > 0 && AllDigits(ds) && AllSpaces(g) && |u| > 0 && (IsM(u[0]) || u[0] == Fun)
    ensures MatchAt(ds + g + u + rest, rule) == |ds| + |g| + UnitLength(u + rest, rule)
  {
    var s := ds + g + u + rest;
    PhraseDigits(ds, g, u, rest);
    PhraseGap(ds, g, u, rest);
    assert DigitRun(s) == |ds| && SpaceRun(s[|ds|..]) == |g| && s[|ds| + |g|..] == u + rest;
  }

  /** `\d+` stops exactly where the digits stop. */
  lemma {:induction false} DigitRunConcat(ds: string, rest: string)
    requires AllDigits(ds) && (|rest| > 0 ==> !IsDigit(rest[0]))
    ensures DigitRun(ds + rest) == |ds|
    decreases |ds|
  {
    if |ds| == 0 {
      assert ds + rest == rest;
    } else {
      assert (ds + rest)[1..] == ds[1..] + rest;
      DigitRunConcat(ds[1..], rest);
    }
  }

  /** `\s*` stops exactly where the spaces stop. */
  lemma {:induction false} SpaceRunConcat(g: string, rest: string)
    requires AllSpaces(g) && (|rest| > 0 ==> !IsSpace(rest[0]))
    ensures SpaceRun(g + rest) == |g|
    decreases |g|
  {
    if |g| == 0 {
      assert g + rest == rest;
    } else {
      assert (g + rest)[1..] == g[1..] + rest;
      SpaceRunConcat(g[1..], rest);
    }
  }

  /** A scan over a phrase of digits, a gap and a unit takes the digits,
      the gap and as much of the unit as the rule matches. */
  lemma PhraseScan(ds: string, g: string, u: string, rest: string, rule: UnitRule)
    requires |ds| > 0 && AllDigits(ds) && AllSpaces(g) && |u| > 0 && (IsM(u[0]) || u[0] == Fun)
    requires UnitLength(u + rest, rule) <= |u|
    ensures var m := UnitLength(u + rest, rule);
      EstimateScan(ds + g + u + rest, rule) == [Estimate(ds, g, u[..m])] + EstimateScan(u[m..] + rest, rule)
  {
    var s := ds + g + u + rest;
    var m := UnitLength(u + rest, rule);
    PhraseToken(ds, g, u, rest, rule);
    Concat4(ds, g, u, rest, m);
    var n := MatchAt(s, rule);
    assert n == |ds| + |g| + m;
    assert s[n..] == u[m..] + rest;
    ScanMatch(s, rule);
    assert EstimateScan(s, rule) == [EstimateToken(s, rule)] + EstimateScan(s[n..], rule);
  }

  /** The token the scan takes from such a phrase. */
  lemma PhraseToken(ds: string, g: string, u: string, rest: string, rule: UnitRule)
    requires |ds| > 0 && AllDigits(ds) && AllSpaces(g) && |u| > 0 && (IsM(u[0]) || u[0] == Fun)
    requires UnitLength(u + rest, rule) <= |u|
    ensures MatchAt(ds + g + u + rest, rule) == |ds| + |g| + UnitLength(u + rest, rule) > 0
    ensures EstimateToken(ds + g + u + rest, rule) == Estimate(ds, g, u[..UnitLength(u + rest, rule)])
  {
    MatchAtPhrase(ds, g, u, rest, rule);
    PhraseDigits(ds, g, u, rest);
    PhraseGap(ds, g, u, rest);
    Concat4(ds, g, u, rest, UnitLength(u + rest, rule));
  }

  /** The four parts of a concatenation, recovered by slicing. */
  lemma Concat4<T>(a: seq<T>, b: seq<T>, c: seq<T>, d: seq<T>, m: nat)
    requires m <= |c|
    ensures (a + b + c + d)[..|a|] == a
    ensures (a + b + c + d)[|a|..|a| + |b|] == b
    ensures (a + b + c + d)[|a| + |b|..|a| + |b| + m] == c[..m]
    ensures (a + b + c + d)[|a| + |b| + m..] == c[m..] + d
  {
  }

  /** As written, the match on `<digits><gap>min` ends after the `m`. */
  lemma AsWrittenStopsAtM(ds: string, g: string, u: string, rest: string)
    requires |ds| > 0 && AllDigits(ds) && AllSpaces(g) && |u| == 3 && StartsWithMin(u)
    ensures EstimateScan(ds + g + u + rest, AsWritten) ==
      [Estimate(ds, g, u[..1])] + EstimateScan(u[1..] + rest, AsWritten)
  {
    assert UnitLength(u + rest, AsWritten) == 1;
    PhraseScan(ds, g, u, rest, AsWritten);
  }

  /** One step of the scan where no match starts. */
  lemma ScanLit(s: string, rule: UnitRule)
    requires |s| > 0 && MatchAt(s, rule) == 0
    ensures EstimateScan(s, rule) == [Lit(s[0])] + EstimateScan(s[1..], rule)
  {
  }

  /** One step of the scan where a match starts. */
  lemma ScanMatch(s: string, rule: UnitRule)
    requires |s| > 0 && MatchAt(s, rule) > 0
    ensures EstimateScan(s, rule) == [EstimateToken(s, rule)] + EstimateScan(s[MatchAt(s, rule)..], rule)
  {
  }

  /** Two characters that are not digits pass through a scan as plain text. */
  lemma TwoLetters(s: string, rule: UnitRule)
    requires |s| >= 2 && !IsDigit(s[0]) && !IsDigit(s[1])
    ensures EstimateScan(s, rule) == [Lit(s[0]), Lit(s[1])] + EstimateScan(s[2..], rule)
  {
    var x := EstimateScan(s[2..], rule);
    assert EstimateScan(s[1..], rule) == [Lit(s[1])] + x by {
      ScanLit(s[1..], rule);
      assert s[1..][1..] == s[2..];
    }
    ScanLit(s, rule);
    ConsPair(Lit(s[0]), Lit(s[1]), x);
  }

  /** As written, a `min` unit is only matched up to its `m`: the scan cuts
      the estimate short and leaves `in` as plain text. */
  lemma AsWrittenKeepsIn(ds: string, g: string, u: string, rest: string)
    requires |ds| > 0 && AllDigits(ds) && AllSpaces(g) && |u| == 3 && StartsWithMin(u)
    ensures EstimateScan(ds + g + u + rest, AsWritten) ==
      [Estimate(ds, g, u[..1]), Lit(u[1]), Lit(u[2])] + EstimateScan(rest, AsWritten)
    ensures StripEstimates(ds + g + u + rest, AsWritten) == u[1..] + StripEstimates(rest, AsWritten)
  {
    var e := Estimate(ds, g, u[..1]);
    var tail := EstimateScan(rest, AsWritten);
    AsWrittenStopsAtM(ds, g, u, rest);
    var t := u[1..] + rest;
    assert t[0] == u[1] && t[1] == u[2] && t[2..] == rest;
    TwoLetters(t, AsWritten);
    ConsTriple(e, Lit(u[1]), Lit(u[2]), tail);
    var head := [e, Lit(u[1]), Lit(u[2])];
    PlainAppend(head, tail);
    PlainHead(ds, g, u);
  }

  lemma ConsPair<T>(x: T, y: T, b: seq<T>)
    ensures [x] + ([y] + b) == [x, y] + b
  {
  }

  lemma ConsTriple<T>(x: T, y: T, z: T, b: seq<T>)
    ensures [x] + ([y, z] + b) == [x, y, z] + b
  {
  }

  lemma PlainHead(ds: string, g: string, u: string)
    requires |u| == 3
    ensures Plain([Estimate(ds, g, u[..1]), Lit(u[1]), Lit(u[2])]) == u[1..]
  {
    var head := [Estimate(ds, g, u[..1]), Lit(u[1]), Lit(u[2])];
    assert head[1..] == [Lit(u[1]), Lit(u[2])];
    assert head[1..][1..] == [Lit(u[2])];
    assert head[1..][1..][1..] == [];
    assert Plain(head[1..][1..]) == [u[2]];
    assert Plain(head[1..]) == [u[1], u[2]];
  }

  /** With `min` read as a whole word, an estimate phrase is removed
      entirely: nothing of it is left in the title. */
  lemma WholeWordRemovesEstimate(ds: string, g: string, u: string, rest: string)
    requires |ds| > 0 && AllDigits(ds) && AllSpaces(g) && IsUnitWord(u)
    requires |u| == 1 && IsM(u[0]) ==> !(|rest| >= 2 && IsI(rest[0]) && IsN(rest[1]))
    ensures EstimateScan(ds + g + u + rest, WholeWord) == [Estimate(ds, g, u)] + EstimateScan(rest, WholeWord)
    ensures StripEstimates(ds + g + u + rest, WholeWord) == StripEstimates(rest, WholeWord)
  {
    assert UnitLength(u + rest, WholeWord) == |u|;
    PhraseScan(ds, g, u, rest, WholeWord);
    assert u[..|u|] == u && u[|u|..] + rest == rest;
    PlainAppend([Estimate(ds, g, u)], EstimateScan(rest, WholeWord));
  }

  /** The entry `5min` as written yields the title `in`. */
  lemma FiveMinTitle()
    ensures ParseInputAsWritten("5min").title == "in"
  {
    FiveMinStripped();
    TrimIn();
    assert !IsSpace("in"[0]);
  }

  /** As written, stripping `5min` leaves `in`. */
  lemma FiveMinStripped()
    ensures StripEstimates(StripTags("5min"), AsWritten) == "in"
  {
    var s := "5min";
    NoHashNoTags(s);
    FiveMinSplit();
    AsWrittenKeepsIn("5", "", "min", "");
    assert StripEstimates("", AsWritten) == "";
  }

  /** With the whole word read, `5min` yields the placeholder title. */
  lemma FiveMinCorrected()
    ensures ParseInput("5min").title == Untitled
  {
    var s := "5min";
    NoHashNoTags(s);
    FiveMinSplit();
    WholeWordRemovesEstimate("5", "", "min", "");
    assert StripEstimates("", WholeWord) == "";
  }

  lemma FiveMinSplit()
    ensures "5min" == "5" + "" + "min" + ""
    ensures |"5"| > 0 && AllDigits("5") && AllSpaces("") && StartsWithMin("min") && IsUnitWord("min")
  {
  }

  lemma TrimIn()
    ensures Trim("in") == "in"
  {
    assert !IsSpace('i') && !IsSpace('n');
    assert TrimStart("in") == "in";
    assert TrimEnd("in") == "in";
  }

}

=== FILE: retention.dfy ===
/** The retention rule: only the records of the last `ARCHIVE_DAYS` dates
    are kept. `recent` stands for `getRecentDates(ARCHIVE_DAYS)`, today and
    the six days before it, computed from the clock. */
module Retention {
  import opened Wrappers
  import opened Tasks
  import opened DayStore
  import opened Rollover

  /** `ARCHIVE_DAYS`. */
  const ArchiveDays: nat := 7

  /** `purgeOldRecords`: every record whose date is not recent is deleted. */
  function PurgeOldRecords(days: map<string, DayRecord>, recent: seq<string>): (r: map<string, DayRecord>)
    ensures forall k :: k in r <==> k in days && k in recent
    ensures forall k :: k in r ==> r[k] == days[k]
    ensures WellKeyed(days) ==> WellKeyed(r)
  {
    map k | k in days && k in recent :: days[k]
  }

  /** A list of dates names at most as many distinct dates as it is long. */
  lemma {:induction false} DistinctBound(xs: seq<string>)
    ensures |set x | x in xs| <= |xs|
  {
    if |xs| > 0 {
      var tail := xs[1..];
      DistinctBound(tail);
      assert (set x | x in xs) == (set x | x in tail) + {xs[0]};
    }
  }

  /** After a purge at most `ARCHIVE_DAYS` records remain. */
  lemma PurgeBound(days: map<string, DayRecord>, recent: seq<string>)
    requires |recent| == ArchiveDays
    ensures |PurgeOldRecords(days, recent)| <= ArchiveDays
  {
    var r := PurgeOldRecords(days, recent);
    assert r.Keys <= set x | x in recent;
    DistinctBound(recent);
    SubsetBound(r.Keys, set x | x in recent);
    assert |r| == |r.Keys|;
  }

  lemma {:induction false} SubsetBound<T>(a: set<T>, b: set<T>)
    requires a <= b
    ensures |a| <= |b|
    decreases |b|
  {
    if a != {} {
      var x :| x in a;
      SubsetBound(a - {x}, b - {x});
    }
  }

  /** Purging twice is purging once. */
  lemma PurgeIdempotent(days: map<string, DayRecord>, recent: seq<string>)
    ensures PurgeOldRecords(PurgeOldRecords(days, recent), recent) == PurgeOldRecords(days, recent)
  {
  }

  /** The startup sequence of `init`: the rollover check, then the purge. */
  function Startup(s: Store, today: string, recent: seq<string>, newId: nat -> string, now: int): (r: Store)
    requires WellKeyed(s.days)
    ensures WellKeyed(r.days) && r.lastOpened == Some(today)
    ensures forall k :: k in r.days ==> k in recent
    ensures var rolled := CheckAndPerformRollover(s, today, newId, now);
      (forall k :: k in r.days <==> k in recent && k in rolled.days) &&
      (forall k :: k in r.days ==> r.days[k] == rolled.days[k])
  {
    var rolled := CheckAndPerformRollover(s, today, newId, now);
    rolled.(days := PurgeOldRecords(rolled.days, recent))
  }

  /** When today is among the recent dates, the purge that follows the
      rollover keeps everything the rollover carried into today, even when
      it deletes the day the tasks came from. */
  lemma StartupKeepsCarried(s: Store, today: string, recent: seq<string>, newId: nat -> string, now: int)
    requires WellKeyed(s.days) && today in recent
    requires Truthy(s.lastOpened) && s.lastOpened.value != today
    requires s.lastOpened.value in s.days && |Incomplete(s.days[s.lastOpened.value].tasks)| > 0
    ensures var r := Startup(s, today, recent, newId, now);
      today in r.days &&
      CarriedList(r.days[today].tasks, TodayRecord(s, today).tasks,
        Incomplete(s.days[s.lastOpened.value].tasks), newId, now, s.lastOpened.value)
  {
    var rolled := PerformRollover(s, s.lastOpened.value, today, newId, now);
    assert CarriedInto(s, rolled, s.lastOpened.value, today, newId, now);
  }
}

=== FILE: rollover.dfy ===
/** Carrying unfinished tasks from one day into another: `performRollover`
    at startup and `restoreIncompleteTasks` from the archive view. Fresh
    ids come from `newId`, standing for successive `generateId()` calls,
    and `now` stands for `Date.now()`. */
module Rollover {
  import opened Wrappers
  import opened Tasks
  import opened DayStore

  /** `c` is the copy made of `t`: fresh id, not done, carried from
      `from`, with the given order and the title, priority, estimate and
      tags of `t`. */
  predicate IsCarriedCopy(c: Task, t: Task, id: string, now: int, from: string, order: int) {
    c.id == id && c.title == t.title && !c.done && c.priority == t.priority &&
    c.estimate == t.estimate && c.tags == t.tags && c.createdAt == now &&
    c.carriedFrom == Some(from) && c.order == order
  }

  /** The copies `incompleteTasks.forEach((task, index) => …)` pushes. */
  function Copies(src: seq<Task>, newId: nat -> string, now: int, from: string, base: int): (r: seq<Task>)
    ensures |r| == |src|
    ensures forall k :: 0 <= k < |src| ==> IsCarriedCopy(r[k], src[k], newId(k), now, from, base + k)
  {
    if |src| == 0 then []
    else
      var n := |src| - 1;
      var t := src[n];
      Copies(src[..n], newId, now, from, base) +
        [Task(newId(n), t.title, false, t.priority, t.estimate, t.tags, now, Some(from), base + n)]
  }

  /** `ts` is `before` followed by one carried copy of each task of `inc`,
      in order, numbered on from the largest order of `before`. */
  predicate CarriedList(ts: seq<Task>, before: seq<Task>, inc: seq<Task>,
                        newId: nat -> string, now: int, from: string)
  {
    |ts| == |before| + |inc| && ts[..|before|] == before &&
    forall k :: 0 <= k < |inc| ==>
      IsCarriedCopy(ts[|before| + k], inc[k], newId(k), now, from, MaxOrder(before) + 1 + k)
  }

  /** What `performRollover(from, to)` writes, when it writes at all. */
  predicate CarriedInto(s: Store, r: Store, from: string, to: string, newId: nat -> string, now: int)
    requires WellKeyed(s.days) && from in s.days
  {
    to in r.days && r.days[to].date == to &&
    CarriedList(r.days[to].tasks, TodayRecord(s, to).tasks, Incomplete(s.days[from].tasks), newId, now, from)
  }

  /** Appending the copies gives a carried list. */
  lemma AppendCopies(before: seq<Task>, inc: seq<Task>, newId: nat -> string, now: int, from: string)
    ensures CarriedList(before + Copies(inc, newId, now, from, MaxOrder(before) + 1), before, inc, newId, now, from)
  {
    var cs := Copies(inc, newId, now, from, MaxOrder(before) + 1);
    var ts := before + cs;
    assert ts[..|before|] == before;
    forall k | 0 <= k < |inc|
      ensures IsCarriedCopy(ts[|before| + k], inc[k], newId(k), now, from, MaxOrder(before) + 1 + k)
    {
      assert ts[|before| + k] == cs[k];
    }
  }

  /** `performRollover(from, to)`: no write when the source day is missing
      or has nothing open; otherwise one copy of each open task is appended
      to the target day, read or created empty. No other record changes. */
  function PerformRollover(s: Store, from: string, to: string, newId: nat -> string, now: int): (r: Store)
    requires WellKeyed(s.days)
    ensures WellKeyed(r.days) && r.lastOpened == s.lastOpened
    ensures from !in s.days ==> r == s
    ensures from in s.days && |Incomplete(s.days[from].tasks)| == 0 ==> r == s
    ensures from in s.days && |Incomplete(s.days[from].tasks)| > 0 ==> CarriedInto(s, r, from, to, newId, now)
    ensures forall k :: k != to ==> (k in r.days <==> k in s.days)
    ensures forall k :: k != to && k in s.days ==> r.days[k] == s.days[k]
  {
    if from !in s.days then s
    else
      var inc := Incomplete(s.days[from].tasks);
      if |inc| == 0 then s
      else
        var today := TodayRecord(s, to);
        var rec := DayRecord(to, today.tasks + Copies(inc, newId, now, from, MaxOrder(today.tasks) + 1));
        AppendCopies(today.tasks, inc, newId, now, from);
        Save(s, rec)
  }

  /** `restoreIncompleteTasks(from)`: the same copy into today's record. */
  function RestoreIncompleteTasks(s: Store, from: string, today: string, newId: nat -> string, now: int): (r: Store)
    requires WellKeyed(s.days)
    ensures WellKeyed(r.days) && r.lastOpened == s.lastOpened
    ensures from !in s.days || |Incomplete(s.days[from].tasks)| == 0 ==> r == s
    ensures from in s.days && |Incomplete(s.days[from].tasks)| > 0 ==> CarriedInto(s, r, from, today, newId, now)
    ensures forall k :: k != today ==> (k in r.days <==> k in s.days)
    ensures forall k :: k != today && k in s.days ==> r.days[k] == s.days[k]
  {
    PerformRollover(s, from, today, newId, now)
  }

  /** `lastOpened && …`: an empty date string counts as unset. */
  predicate Truthy(o: Option<string>) {
    o.Some? && o.value != ""
  }

  /** `checkAndPerformRollover`: rolls over from the last opened day when
      that is set and is not today, then records today as last opened. */
  function CheckAndPerformRollover(s: Store, today: string, newId: nat -> string, now: int): (r: Store)
    requires WellKeyed(s.days)
    ensures WellKeyed(r.days) && r.lastOpened == Some(today)
    ensures !Truthy(s.lastOpened) || s.lastOpened.value == today ==> r.days == s.days
    ensures Truthy(s.lastOpened) && s.lastOpened.value != today ==>
      r.days == PerformRollover(s, s.lastOpened.value, today, newId, now).days
  {
    var rolled :=
      if Truthy(s.lastOpened) && s.lastOpened.value != today
      then PerformRollover(s, s.lastOpened.value, today, newId, now)
      else s;
    rolled.(lastOpened := Some(today))
  }

  // ---------------------------------------------------------------------
  // Properties

  /** An immediate second check copies nothing: the store is unchanged. */
  lemma SecondCheckIsNoOp(s: Store, today: string, newId: nat -> string, now: int,
                          newId2: nat -> string, now2: int)
    requires WellKeyed(s.days)
    ensures var r := CheckAndPerformRollover(s, today, newId, now);
      CheckAndPerformRollover(r, today, newId2, now2) == r
  {
  }

  /** Carried copies are ordered after every task already in the target
      day, and among themselves in the order of the source day. */
  lemma CarriedOrders(ts: seq<Task>, before: seq<Task>, inc: seq<Task>,
                      newId: nat -> string, now: int, from: string)
    requires CarriedList(ts, before, inc, newId, now, from)
    ensures forall i, j :: 0 <= i < |before| <= j < |ts| ==> ts[i].order < ts[j].order
    ensures forall i, j :: |before| <= i < j < |ts| ==> ts[i].order < ts[j].order
  {
    forall i, j | 0 <= i < |before| <= j < |ts|
      ensures ts[i].order < ts[j].order
    {
      assert ts[i] == ts[..|before|][i];
      var b := j - |before|;
      assert IsCarriedCopy(ts[|before| + b], inc[b], newId(b), now, from, MaxOrder(before) + 1 + b);
    }
    forall i, j | |before| <= i < j < |ts|
      ensures ts[i].order < ts[j].order
    {
      var a := i - |before|;
      var b := j - |before|;
      assert IsCarriedCopy(ts[|before| + a], inc[a], newId(a), now, from, MaxOrder(before) + 1 + a);
      assert IsCarriedCopy(ts[|before| + b], inc[b], newId(b), now, from, MaxOrder(before) + 1 + b);
    }
  }

  lemma CopiesOrderedAfter(s: Store, from: string, to: string, newId: nat -> string, now: int)
    requires WellKeyed(s.days) && from in s.days && |Incomplete(s.days[from].tasks)| > 0
    ensures var r := PerformRollover(s, from, to, newId, now);
      var before := TodayRecord(s, to).tasks;
      to in r.days &&
      (forall i, j :: 0 <= i < |before| <= j < |r.days[to].tasks| ==>
        r.days[to].tasks[i].order < r.days[to].tasks[j].order) &&
      (forall i, j :: |before| <= i < j < |r.days[to].tasks| ==>
        r.days[to].tasks[i].order < r.days[to].tasks[j].order)
  {
    var r := PerformRollover(s, from, to, newId, now);
    CarriedOrders(r.days[to].tasks, TodayRecord(s, to).tasks, Incomplete(s.days[from].tasks), newId, now, from);
  }

  /** The copies are open and record where they came from; the tasks of
      the source day are all open ones. */
  lemma CarriedOpen(ts: seq<Task>, before: seq<Task>, inc: seq<Task>,
                    newId: nat -> string, now: int, from: string)
    requires CarriedList(ts, before, inc, newId, now, from)
    ensures forall j :: |before| <= j < |ts| ==> !ts[j].done && ts[j].carriedFrom == Some(from)
  {
    forall j | |before| <= j < |ts|
      ensures !ts[j].done && ts[j].carriedFrom == Some(from)
    {
      var k := j - |before|;
      assert IsCarriedCopy(ts[|before| + k], inc[k], newId(k), now, from, MaxOrder(before) + 1 + k);
    }
  }

  /** Copy, not move: the source day is left as it was, and only open
      tasks are carried. */
  lemma CopyNotMove(s: Store, from: string, to: string, newId: nat -> string, now: int)
    requires WellKeyed(s.days) && from in s.days && from != to
    ensures var r := PerformRollover(s, from, to, newId, now);
      from in r.days && r.days[from] == s.days[from]
    ensures var r := PerformRollover(s, from, to, newId, now);
      to in r.days ==> forall j :: |TodayRecord(s, to).tasks| <= j < |r.days[to].tasks| ==>
        !r.days[to].tasks[j].done && r.days[to].tasks[j].carriedFrom == Some(from)
  {
    var r := PerformRollover(s, from, to, newId, now);
    if |Incomplete(s.days[from].tasks)| > 0 {
      CarriedOpen(r.days[to].tasks, TodayRecord(s, to).tasks, Incomplete(s.days[from].tasks), newId, now, from);
    }
  }

  /** Every open task of the source day has its copy among the new tasks. */
  lemma CarriedCover(ts: seq<Task>, before: seq<Task>, inc: seq<Task>, src: seq<Task>,
                     newId: nat -> string, now: int, from: string)
    requires CarriedList(ts, before, inc, newId, now, from)
    requires forall t :: t in inc <==> t in src && !t.done
    ensures forall t :: t in src && !t.done ==>
      (exists j :: |before| <= j < |ts| && ts[j].title == t.title && ts[j].tags == t.tags &&
        ts[j].priority == t.priority && ts[j].estimate == t.estimate)
  {
    forall t | t in src && !t.done
      ensures exists j :: (|before| <= j < |ts| && ts[j].title == t.title && ts[j].tags == t.tags &&
        ts[j].priority == t.priority && ts[j].estimate == t.estimate)
    {
      var k :| 0 <= k < |inc| && inc[k] == t;
      assert IsCarriedCopy(ts[|before| + k], inc[k], newId(k), now, from, MaxOrder(before) + 1 + k);
    }
  }

  lemma OneCopyPerOpenTask(s: Store, from: string, to: string, newId: nat -> string, now: int)
    requires WellKeyed(s.days) && from in s.days && |Incomplete(s.days[from].tasks)| > 0
    ensures var r := PerformRollover(s, from, to, newId, now);
      var before := TodayRecord(s, to).tasks;
      to in r.days && |r.days[to].tasks| == |before| + |Incomplete(s.days[from].tasks)| &&
      forall t :: t in s.days[from].tasks && !t.done ==>
        (exists j :: |before| <= j < |r.days[to].tasks| &&
          r.days[to].tasks[j].title == t.title && r.days[to].tasks[j].tags == t.tags &&
          r.days[to].tasks[j].priority == t.priority && r.days[to].tasks[j].estimate == t.estimate)
  {
    var r := PerformRollover(s, from, to, newId, now);
    CarriedCover(r.days[to].tasks, TodayRecord(s, to).tasks, Incomplete(s.days[from].tasks),
      s.days[from].tasks, newId, now, from);
  }

  /** The first `n` ids `newId` hands out are pairwise distinct and used by
      none of the tasks in `before`. */
  predicate FreshIds(newId: nat -> string, n: nat, before: seq<Task>) {
    (forall a: nat, b: nat :: a < b < n ==> newId(a) != newId(b)) &&
    (forall a: nat, j :: a < n && 0 <= j < |before| ==> newId(a) != before[j].id)
  }

  /** Fresh ids keep the ids of the target day distinct. */
  lemma CarriedIds(ts: seq<Task>, before: seq<Task>, inc: seq<Task>,
                   newId: nat -> string, now: int, from: string)
    requires CarriedList(ts, before, inc, newId, now, from)
    requires DistinctIds(before)
    requires FreshIds(newId, |inc|, before)
    ensures DistinctIds(ts)
  {
    forall i, j | 0 <= i < j < |ts|
      ensures ts[i].id != ts[j].id
    {
      if j >= |before| {
        var b := j - |before|;
        assert IsCarriedCopy(ts[|before| + b], inc[b], newId(b), now, from, MaxOrder(before) + 1 + b);
        if i >= |before| {
          var a := i - |before|;
          assert IsCarriedCopy(ts[|before| + a], inc[a], newId(a), now, from, MaxOrder(before) + 1 + a);
        } else {
          assert ts[i] == ts[..|before|][i];
        }
      } else {
        assert ts[i] == ts[..|before|][i] && ts[j] == ts[..|before|][j];
      }
    }
  }

  /** A carried target day has distinct ids when the ids already there
      are distinct and the fresh ids clash neither with each other nor with
      them. */
  lemma CarriedIntoIds(s: Store, r: Store, from: string, to: string, newId: nat -> string, now: int)
    requires WellKeyed(s.days) && from in s.days
    requires CarriedInto(s, r, from, to, newId, now)
    requires DistinctIds(TodayRecord(s, to).tasks)
    requires FreshIds(newId, |Incomplete(s.days[from].tasks)|, TodayRecord(s, to).tasks)
    ensures to in r.days && DistinctIds(r.days[to].tasks)
  {
    CarriedIds(r.days[to].tasks, TodayRecord(s, to).tasks, Incomplete(s.days[from].tasks), newId, now, from);
  }

  /** `performRollover` leaves the target day with distinct ids when its
      own ids are distinct and the ids of the copies are fresh. */
  lemma CopiesKeepIdsDistinct(s: Store, from: string, to: string, newId: nat -> string, now: int)
    requires WellKeyed(s.days) && from in s.days && |Incomplete(s.days[from].tasks)| > 0
    requires DistinctIds(TodayRecord(s, to).tasks)
    requires FreshIds(newId, |Incomplete(s.days[from].tasks)|, TodayRecord(s, to).tasks)
    ensures var r := PerformRollover(s, from, to, newId, now);
      to in r.days && DistinctIds(r.days[to].tasks)
  {
    var r := PerformRollover(s, from, to, newId, now);
    CarriedIntoIds(s, r, from, to, newId, now);
  }
}

=== FILE: store.dfy ===
/** The store: day records keyed by their date, plus the `lastOpenedDate`
    meta value. Every operation here reads today's record (or an empty one
    when none is stored), changes it and writes it back, as the handlers of
    app.js do. */
module DayStore {
  import opened Wrappers
  import opened Text
  import opened Tasks
  import Parsing

  datatype Store = Store(days: map<string, DayRecord>, lastOpened: Option<string>)

  /** Records sit under their own `date`, the key path of the `days` store. */
  predicate WellKeyed(days: map<string, DayRecord>) {
    forall k :: k in days ==> days[k].date == k
  }

  /** `getTodayRecord`: the stored record, or an empty one that is not
      written until something saves it. */
  function TodayRecord(s: Store, today: string): (r: DayRecord)
    requires WellKeyed(s.days)
    ensures r.date == today
    ensures today in s.days ==> r == s.days[today]
    ensures today !in s.days ==> r.tasks == []
  {
    if today in s.days then s.days[today] else DayRecord(today, [])
  }

  /** `saveDayRecord`: a put under the record's `date`; no other record and
      no meta value changes. */
  function Save(s: Store, rec: DayRecord): (r: Store)
    ensures rec.date in r.days && r.days[rec.date] == rec
    ensures forall k :: k != rec.date ==> (k in r.days <==> k in s.days)
    ensures forall k :: k != rec.date && k in s.days ==> r.days[k] == s.days[k]
    ensures r.lastOpened == s.lastOpened
    ensures WellKeyed(s.days) && WellKeyed(map[rec.date := rec]) ==> WellKeyed(r.days)
  {
    s.(days := s.days[rec.date := rec])
  }

  /** `addTask` on the store: always writes today's record. */
  function StoreAddTask(s: Store, today: string, id: string, title: string, tags: seq<string>,
                        estimate: Option<int>, now: int): (r: Store)
    requires WellKeyed(s.days)
    ensures WellKeyed(r.days) && today in r.days
    ensures |r.days[today].tasks| == |TodayRecord(s, today).tasks| + 1
    ensures r.days[today].tasks[..|TodayRecord(s, today).tasks|] == TodayRecord(s, today).tasks
    ensures r.days[today] == AddTask(TodayRecord(s, today), id, title, tags, estimate, now).record
    ensures forall k :: k != today ==> (k in r.days <==> k in s.days)
    ensures forall k :: k != today && k in s.days ==> r.days[k] == s.days[k]
    ensures r.lastOpened == s.lastOpened
  {
    var a := AddTask(TodayRecord(s, today), id, title, tags, estimate, now);
    assert a.record.tasks[..|TodayRecord(s, today).tasks|] == TodayRecord(s, today).tasks;
    Save(s, a.record)
  }

  /** `handleAddTask`: input that trims to nothing adds nothing; otherwise
      the trimmed input is parsed and added as a task. */
  function HandleAddTask(s: Store, today: string, input: string, id: string, now: int): (r: Store)
    requires WellKeyed(s.days)
    ensures WellKeyed(r.days)
    ensures AllSpaces(input) ==> r == s
    ensures !AllSpaces(input) ==>
      today in r.days && |r.days[today].tasks| == |TodayRecord(s, today).tasks| + 1 &&
      r.days[today].tasks[..|TodayRecord(s, today).tasks|] == TodayRecord(s, today).tasks &&
      var t := r.days[today].tasks[|TodayRecord(s, today).tasks|];
      t == AddTask(TodayRecord(s, today), id, Parsing.ParseInputAsWritten(Trim(input)).title,
        Parsing.ParseInputAsWritten(Trim(input)).tags, Parsing.ParseInputAsWritten(Trim(input)).estimate, now).task &&
      t.title != [] && t.estimate in EstimateValues && t.id == id && !t.done
    ensures forall k :: k != today ==> (k in r.days <==> k in s.days)
    ensures forall k :: k != today && k in s.days ==> r.days[k] == s.days[k]
    ensures r.lastOpened == s.lastOpened
  {
    var trimmed := Trim(input);
    if trimmed == [] then s
    else
      var p := Parsing.ParseInputAsWritten(trimmed);
      assert p.title != [] && p.estimate in EstimateValues by {
        SnappedIsListed(p.estimate);
      }
      var before := TodayRecord(s, today).tasks;
      var a := AddTask(TodayRecord(s, today), id, p.title, p.tags, p.estimate, now);
      assert a.record.tasks[|before|] == a.task;
      assert a.record.tasks[..|before|] == before;
      Save(s, a.record)
  }

  /** A snapped estimate is one of the values the estimate cycle steps
      through. */
  lemma SnappedIsListed(e: Option<int>)
    requires e.Some? ==> e.value in Parsing.SnapTargets
    ensures e in EstimateValues
  {
  }

  /** `updateTask` on the store: writes only when the id is found. */
  function StoreUpdateTask(s: Store, today: string, id: string, p: Patch): (r: Store)
    requires WellKeyed(s.days)
    ensures WellKeyed(r.days)
    ensures FindIndex(TodayRecord(s, today).tasks, id).None? ==> r == s
    ensures FindIndex(TodayRecord(s, today).tasks, id).Some? ==>
      today in r.days && r.days[today] == UpdateTask(TodayRecord(s, today), id, p).record
    ensures forall k :: k != today ==> (k in r.days <==> k in s.days)
    ensures forall k :: k != today && k in s.days ==> r.days[k] == s.days[k]
    ensures r.lastOpened == s.lastOpened
  {
    var u := UpdateTask(TodayRecord(s, today), id, p);
    if u.task.Some? then Save(s, u.record) else s
  }

  /** `deleteTask` on the store: always writes, so a missing record for
      today is saved as an empty one. */
  function StoreDeleteTask(s: Store, today: string, id: string): (r: Store)
    requires WellKeyed(s.days)
    ensures WellKeyed(r.days) && today in r.days
    ensures forall t :: t in r.days[today].tasks <==> t in TodayRecord(s, today).tasks && t.id != id
    ensures r.days[today] == DeleteTask(TodayRecord(s, today), id)
    ensures today !in s.days ==> r.days[today] == DayRecord(today, [])
    ensures forall k :: k != today ==> (k in r.days <==> k in s.days)
    ensures forall k :: k != today && k in s.days ==> r.days[k] == s.days[k]
    ensures r.lastOpened == s.lastOpened
  {
    Save(s, DeleteTask(TodayRecord(s, today), id))
  }

  /** `reorderTasks` on the store: always writes. */
  function StoreReorder(s: Store, today: string, ids: seq<string>): (r: Store)
    requires WellKeyed(s.days)
    ensures WellKeyed(r.days) && today in r.days
    ensures Ids(r.days[today].tasks) == Ids(TodayRecord(s, today).tasks)
    ensures forall j :: 0 <= j < |r.days[today].tasks| ==>
      r.days[today].tasks[j].order == ReorderedOrder(TodayRecord(s, today).tasks, ids, j)
    ensures forall j :: 0 <= j < |r.days[today].tasks| ==>
      r.days[today].tasks[j] == TodayRecord(s, today).tasks[j].(order := r.days[today].tasks[j].order)
    ensures forall k :: k != today ==> (k in r.days <==> k in s.days)
    ensures forall k :: k != today && k in s.days ==> r.days[k] == s.days[k]
    ensures r.lastOpened == s.lastOpened
  {
    Save(s, ReorderTasks(TodayRecord(s, today), ids))
  }

  /** The store after a `toggleDone`, `cyclePriority` or `cycleEstimate`
      handler: written only when the task is found. */
  function Commit(s: Store, u: Updated): (r: Store)
    requires WellKeyed(s.days) && WellKeyed(map[u.record.date := u.record])
    ensures WellKeyed(r.days)
    ensures u.task.None? ==> r == s
    ensures u.task.Some? ==> u.record.date in r.days && r.days[u.record.date] == u.record
    ensures forall k :: k != u.record.date ==> (k in r.days <==> k in s.days)
    ensures forall k :: k != u.record.date && k in s.days ==> r.days[k] == s.days[k]
    ensures r.lastOpened == s.lastOpened
  {
    if u.task.Some? then Save(s, u.record) else s
  }

  function StoreToggleDone(s: Store, today: string, id: string): (r: Store)
    requires WellKeyed(s.days)
    ensures WellKeyed(r.days)
    ensures FindIndex(TodayRecord(s, today).tasks, id).None? ==> r == s
    ensures FindIndex(TodayRecord(s, today).tasks, id).Some? ==>
      today in r.days && r.days[today] == ToggleDone(TodayRecord(s, today), id).record
    ensures forall k :: k != today ==> (k in r.days <==> k in s.days)
    ensures forall k :: k != today && k in s.days ==> r.days[k] == s.days[k]
    ensures r.lastOpened == s.lastOpened
  {
    Commit(s, ToggleDone(TodayRecord(s, today), id))
  }

  function StoreCyclePriority(s: Store, today: string, id: string): (r: Store)
    requires WellKeyed(s.days)
    ensures WellKeyed(r.days)
    ensures FindIndex(TodayRecord(s, today).tasks, id).None? ==> r == s
    ensures FindIndex(TodayRecord(s, today).tasks, id).Some? ==>
      today in r.days && r.days[today] == CyclePriority(TodayRecord(s, today), id).record
    ensures forall k :: k != today ==> (k in r.days <==> k in s.days)
    ensures forall k :: k != today && k in s.days ==> r.days[k] == s.days[k]
    ensures r.lastOpened == s.lastOpened
  {
    Commit(s, CyclePriority(TodayRecord(s, today), id))
  }

  function StoreCycleEstimate(s: Store, today: string, id: string): (r: Store)
    requires WellKeyed(s.days)
    ensures WellKeyed(r.days)
    ensures FindIndex(TodayRecord(s, today).tasks, id).None? ==> r == s
    ensures FindIndex(TodayRecord(s, today).tasks, id).Some? ==>
      today in r.days && r.days[today] == CycleEstimate(TodayRecord(s, today), id).record
    ensures forall k :: k != today ==> (k in r.days <==> k in s.days)
    ensures forall k :: k != today && k in s.days ==> r.days[k] == s.days[k]
    ensures r.lastOpened == s.lastOpened
  {
    Commit(s, CycleEstimate(TodayRecord(s, today), id))
  }

  /** Toggling the same task twice leaves the store as it was; an unknown
      id writes nothing, not even an empty record for today. */
  lemma StoreToggleTwice(s: Store, today: string, id: string)
    requires WellKeyed(s.days)
    ensures StoreToggleDone(StoreToggleDone(s, today, id), today, id) == s
  {
    var rec := TodayRecord(s, today);
    if FindIndex(rec.tasks, id).Some? {
      var u1 := ToggleDone(rec, id);
      var s1 := Save(s, u1.record);
      assert StoreToggleDone(s, today, id) == s1;
      assert TodayRecord(s1, today) == u1.record;
      FindIndexSameIds(u1.record.tasks, rec.tasks, id);
      ToggleTwice(rec, id);
      var u2 := ToggleDone(u1.record, id);
      assert u2.record == rec && u2.task.Some?;
      assert StoreToggleDone(s1, today, id) == Save(s1, rec);
      RestoreEntry(s.days, today, u1.record);
    }
  }

  /** Writing a key's old value back undoes a write to it. */
  lemma RestoreEntry<K, V>(m: map<K, V>, k: K, v: V)
    requires k in m
    ensures m[k := v][k := m[k]] == m
  {
  }
}

=== FILE: summary.dfy ===
/** The counters of `updateSummary`: open tasks, minutes left, minutes in
    all, and the labels shown for them. */
module Summary {
  import opened Wrappers
  import opened Text
  import opened Tasks

  /** `t.estimateMinutes || 0`. */
  function Minutes(t: Task): int {
    match t.estimate
    case None => 0
    case Some(m) => m
  }

  /** Estimates are absent or non-negative, as parsing and the estimate
      cycle produce them. */
  predicate SaneEstimates(ts: seq<Task>) {
    forall i :: 0 <= i < |ts| ==> Minutes(ts[i]) >= 0
  }

  /** `tasks.reduce((sum, t) => sum + (t.estimateMinutes || 0), 0)`. */
  function SumMinutes(ts: seq<Task>): (r: int)
    ensures SaneEstimates(ts) ==> r >= 0
    ensures SaneEstimates(ts) ==> forall i :: 0 <= i < |ts| ==> Minutes(ts[i]) <= r
  {
    if |ts| == 0 then 0 else SumMinutes(ts[..|ts| - 1]) + Minutes(ts[|ts| - 1])
  }

  /** `tasks.filter(t => t.done)`, the counterpart of `Incomplete`. */
  function Completed(ts: seq<Task>): (r: seq<Task>)
    ensures forall t :: t in r <==> t in ts && t.done
  {
    if |ts| == 0 then []
    else if ts[0].done then [ts[0]] + Completed(ts[1..])
    else Completed(ts[1..])
  }

  datatype Counters = Counters(incompleteCount: nat, remainingMinutes: int, totalMinutes: int)

  /** `updateSummary(tasks)`. */
  function UpdateSummary(ts: seq<Task>): (r: Counters)
    ensures r.incompleteCount <= |ts|
    ensures r.incompleteCount == 0 <==> forall t :: t in ts ==> t.done
    ensures SaneEstimates(ts) ==> 0 <= r.remainingMinutes
    ensures SaneEstimates(ts) ==> 0 <= r.totalMinutes
    ensures r.incompleteCount == |Incomplete(ts)|
    ensures r.remainingMinutes == SumMinutes(Incomplete(ts))
    ensures r.totalMinutes == SumMinutes(ts)
  {
    var inc := Incomplete(ts);
    assert SaneEstimates(ts) ==> SaneEstimates(inc) by {
      if SaneEstimates(ts) {
        forall i | 0 <= i < |inc| ensures Minutes(inc[i]) >= 0 {
          assert inc[i] in ts;
        }
      }
    }
    assert |inc| == 0 <==> forall t :: t in ts ==> t.done by {
      if |inc| > 0 {
        assert inc[0] in inc;
      }
    }
    Counters(|inc|, SumMinutes(inc), SumMinutes(ts))
  }

  /** Summing over a concatenation. */
  lemma {:induction false} SumAppend(a: seq<Task>, b: seq<Task>)
    ensures SumMinutes(a + b) == SumMinutes(a) + SumMinutes(b)
    decreases |b|
  {
    if |b| == 0 {
      assert a + b == a;
    } else {
      var n := |b| - 1;
      assert (a + b)[..|a + b| - 1] == a + b[..n];
      SumAppend(a, b[..n]);
    }
  }

  /** The sum over a list taken from its first element. */
  lemma SumCons(t: Task, rest: seq<Task>)
    ensures SumMinutes([t] + rest) == Minutes(t) + SumMinutes(rest)
  {
    SumAppend([t], rest);
    assert [t][..0] == [];
  }

  /** Every minute is either left or done: the total is the minutes of
      the open tasks plus those of the finished ones. */
  lemma {:induction false} SumSplits(ts: seq<Task>)
    ensures SumMinutes(ts) == SumMinutes(Incomplete(ts)) + SumMinutes(Completed(ts))
  {
    if |ts| > 0 {
      var t, rest := ts[0], ts[1..];
      assert ts == [t] + rest;
      SumSplits(rest);
      SplitsCons(t, rest);
    }
  }

  /** The step of `SumSplits`: a split of the rest extends to a split of
      the list with one more task in front. */
  lemma SplitsCons(t: Task, rest: seq<Task>)
    requires SumMinutes(rest) == SumMinutes(Incomplete(rest)) + SumMinutes(Completed(rest))
    ensures SumMinutes([t] + rest) == SumMinutes(Incomplete([t] + rest)) + SumMinutes(Completed([t] + rest))
  {
    var ts := [t] + rest;
    assert ts[0] == t && ts[1..] == rest;
    SumCons(t, rest);
    var inc, comp := Incomplete(rest), Completed(rest);
    if t.done {
      assert Incomplete(ts) == inc && Completed(ts) == [t] + comp;
      SumCons(t, comp);
    } else {
      assert Incomplete(ts) == [t] + inc && Completed(ts) == comp;
      SumCons(t, inc);
    }
  }

  /** The remaining minutes never exceed the total, given sane estimates. */
  lemma RemainingWithinTotal(ts: seq<Task>)
    requires SaneEstimates(ts)
    ensures 0 <= UpdateSummary(ts).remainingMinutes <= UpdateSummary(ts).totalMinutes
  {
    SumSplits(ts);
    var done := Completed(ts);
    assert SaneEstimates(done) by {
      forall i | 0 <= i < |done| ensures Minutes(done[i]) >= 0 {
        assert done[i] in ts;
      }
    }
  }

  /** The open tasks of a concatenation. */
  lemma {:induction false} IncompleteAppend(a: seq<Task>, b: seq<Task>)
    ensures Incomplete(a + b) == Incomplete(a) + Incomplete(b)
    decreases |a|
  {
    if |a| == 0 {
      assert a + b == b;
    } else {
      assert (a + b)[1..] == a[1..] + b;
      IncompleteAppend(a[1..], b);
    }
  }

  /** `${n}件`, the open-task label. */
  function CountLabel(n: nat): (r: string)
    ensures |r| >= 2 && r[|r| - 1] == '\U{4EF6}'
    ensures AllDigits(r[..|r| - 1]) && DecimalValue(r[..|r| - 1]) == n
  {
    DecimalOfNatToString(n);
    var r := NatToString(n) + "\U{4EF6}";
    assert r[..|r| - 1] == NatToString(n);
    r
  }

  /** `m > 0 ? `${m}m` : '—'`, the minutes label. */
  function MinutesLabel(m: int): (r: string)
    ensures m <= 0 <==> r == "—"
    ensures m > 0 ==> |r| >= 2 && r[|r| - 1] == 'm' && AllDigits(r[..|r| - 1]) && DecimalValue(r[..|r| - 1]) == m
  {
    if m > 0 then
      DecimalOfNatToString(m);
      var r := NatToString(m) + "m";
      assert r[..|r| - 1] == NatToString(m);
      r
    else "—"
  }
}

=== FILE: tasks.dfy ===
/** Tasks and one day's record: the read-modify-write rules of app.js
    applied to a record already read from the store. */
module Tasks {
  import opened Wrappers

  /** A task. `estimate` is `estimateMinutes` (`None` for `null`),
      `carriedFrom` the date key of the day the task was carried from. */
  datatype Task = Task(
    id: string,
    title: string,
    done: bool,
    priority: int,
    estimate: Option<int>,
    tags: seq<string>,
    createdAt: int,
    carriedFrom: Option<string>,
    order: int)

  /** One day's tasks, stored under the key `date`. */
  datatype DayRecord = DayRecord(date: string, tasks: seq<Task>)

  /** The ids of a task list, in list order. */
  function Ids(ts: seq<Task>): (r: seq<string>)
    ensures |r| == |ts| && forall j :: 0 <= j < |ts| ==> r[j] == ts[j].id
  {
    seq(|ts|, j requires 0 <= j < |ts| => ts[j].id)
  }

  /** No two tasks share an id. */
  predicate DistinctIds(ts: seq<Task>) {
    forall i, j :: 0 <= i < j < |ts| ==> ts[i].id != ts[j].id
  }

  // ---------------------------------------------------------------------
  // addTask

  function Max(a: int, b: int): int {
    if a < b then b else a
  }

  /** `tasks.reduce((max, t) => Math.max(max, t.order), -1)`: the largest
      order, or -1 when there is none above -1. */
  function MaxOrder(ts: seq<Task>): (m: int)
    ensures m >= -1
    ensures forall i :: 0 <= i < |ts| ==> ts[i].order <= m
    ensures m == -1 || exists i :: 0 <= i < |ts| && ts[i].order == m
  {
    if |ts| == 0 then -1 else Max(MaxOrder(ts[..|ts| - 1]), ts[|ts| - 1].order)
  }

  /** The record after `addTask`, and the task it returns. */
  datatype Added = Added(record: DayRecord, task: Task)

  /** `addTask`: a new open task of priority 1 appended after every
      existing one. `id` and `now` stand for `generateId()` and `Date.now()`. */
  function AddTask(rec: DayRecord, id: string, title: string, tags: seq<string>,
                   estimate: Option<int>, now: int): (r: Added)
    ensures r.record.date == rec.date
    ensures r.record.tasks == rec.tasks + [r.task]
    ensures r.task.id == id && r.task.title == title && r.task.tags == tags
    ensures r.task.estimate == estimate && r.task.createdAt == now
    ensures !r.task.done && r.task.priority == 1 && r.task.carriedFrom == None
    ensures forall i :: 0 <= i < |rec.tasks| ==> rec.tasks[i].order < r.task.order
    ensures r.task.order >= 0
    ensures r.task.order == 0 || exists i :: 0 <= i < |rec.tasks| && rec.tasks[i].order == r.task.order - 1
  {
    var t := Task(id, title, false, 1, estimate, tags, now, None, MaxOrder(rec.tasks) + 1);
    Added(DayRecord(rec.date, rec.tasks + [t]), t)
  }

  // ---------------------------------------------------------------------
  // Finding a task

  /** `tasks.find(t => t.id === id)`, as the index of the first match. */
  function FindIndex(ts: seq<Task>, id: string): (r: Option<nat>)
    ensures r.Some? ==> r.value < |ts| && ts[r.value].id == id
    ensures r.Some? ==> forall j :: 0 <= j < r.value ==> ts[j].id != id
    ensures r.None? <==> forall j :: 0 <= j < |ts| ==> ts[j].id != id
  {
    if |ts| == 0 then None
    else if ts[0].id == id then Some(0)
    else
      match FindIndex(ts[1..], id)
      case None => None
      case Some(k) => Some(k + 1)
  }

  /** The search depends on the ids alone. */
  lemma {:induction false} FindIndexSameIds(a: seq<Task>, b: seq<Task>, id: string)
    requires |a| == |b| && forall j :: 0 <= j < |a| ==> a[j].id == b[j].id
    ensures FindIndex(a, id) == FindIndex(b, id)
    decreases |a|
  {
    if |a| > 0 && a[0].id != id {
      FindIndexSameIds(a[1..], b[1..], id);
    }
  }

  // ---------------------------------------------------------------------
  // updateTask

  /** The `updates` object handed to `updateTask`; `None` leaves a field
      out. These are the fields its callers pass. */
  datatype Patch = Patch(
    title: Option<string>,
    done: Option<bool>,
    priority: Option<int>,
    estimate: Option<Option<int>>)

  const NoChange := Patch(None, None, None, None)

  /** `Object.assign(task, updates)`. */
  function Apply(t: Task, p: Patch): (r: Task)
    ensures r.id == t.id && r.tags == t.tags && r.createdAt == t.createdAt
    ensures r.carriedFrom == t.carriedFrom && r.order == t.order
    ensures p.title.Some? ==> r.title == p.title.value
    ensures p.title.None? ==> r.title == t.title
    ensures p.done.Some? ==> r.done == p.done.value
    ensures p.done.None? ==> r.done == t.done
    ensures p.priority.Some? ==> r.priority == p.priority.value
    ensures p.priority.None? ==> r.priority == t.priority
    ensures p.estimate.Some? ==> r.estimate == p.estimate.value
    ensures p.estimate.None? ==> r.estimate == t.estimate
  {
    t.(title := p.title.GetOr(t.title),
       done := p.done.GetOr(t.done),
       priority := p.priority.GetOr(t.priority),
       estimate := p.estimate.GetOr(t.estimate))
  }

  /** Assigning the same updates twice is assigning them once, and an empty
      update changes nothing. */
  lemma ApplyIdempotent(t: Task, p: Patch)
    ensures Apply(Apply(t, p), p) == Apply(t, p)
    ensures Apply(t, NoChange) == t
  {
  }

  /** The record after `updateTask`, and the task it returns (`undefined`
      when the id is unknown, in which case nothing is saved). */
  datatype Updated = Updated(record: DayRecord, task: Option<Task>)

  /** `updateTask`: merges the updates into the first task with the id. */
  function UpdateTask(rec: DayRecord, id: string, p: Patch): (r: Updated)
    ensures r.record.date == rec.date && |r.record.tasks| == |rec.tasks|
    ensures FindIndex(rec.tasks, id).None? ==> r.record == rec && r.task.None?
    ensures FindIndex(rec.tasks, id).Some? ==>
      var i := FindIndex(rec.tasks, id).value;
      r.task == Some(r.record.tasks[i]) && r.record.tasks[i] == Apply(rec.tasks[i], p)
    ensures FindIndex(rec.tasks, id).Some? ==>
      forall j :: 0 <= j < |rec.tasks| && j != FindIndex(rec.tasks, id).value ==>
        r.record.tasks[j] == rec.tasks[j]
    ensures Ids(r.record.tasks) == Ids(rec.tasks)
  {
    match FindIndex(rec.tasks, id)
    case None => Updated(rec, None)
    case Some(i) =>
      var t := Apply(rec.tasks[i], p);
      Updated(DayRecord(rec.date, rec.tasks[i := t]), Some(t))
  }

  // ---------------------------------------------------------------------
  // deleteTask

  /** `tasks.filter(t => t.id !== id)`. */
  function Without(ts: seq<Task>, id: string): (r: seq<Task>)
    ensures |r| <= |ts|
    ensures forall t :: t in r <==> t in ts && t.id != id
  {
    if |ts| == 0 then []
    else if ts[0].id == id then Without(ts[1..], id)
    else [ts[0]] + Without(ts[1..], id)
  }

  /** `deleteTask`: drops exactly the tasks with the id; the others keep
      every field, their `order` included. */
  function DeleteTask(rec: DayRecord, id: string): (r: DayRecord)
    ensures r.date == rec.date
    ensures forall t :: t in r.tasks <==> t in rec.tasks && t.id != id
    ensures FindIndex(r.tasks, id).None?
  {
    DayRecord(rec.date, Without(rec.tasks, id))
  }

  /** Deleting an id nobody has changes nothing, and deleting twice is
      deleting once. */
  lemma {:induction false} WithoutAbsent(ts: seq<Task>, id: string)
    requires forall j :: 0 <= j < |ts| ==> ts[j].id != id
    ensures Without(ts, id) == ts
  {
    if |ts| > 0 {
      WithoutAbsent(ts[1..], id);
      assert ts == [ts[0]] + ts[1..];
    }
  }

  lemma DeleteTwice(rec: DayRecord, id: string)
    ensures DeleteTask(DeleteTask(rec, id), id) == DeleteTask(rec, id)
  {
    var r := DeleteTask(rec, id);
    WithoutAbsent(r.tasks, id);
  }

  /** Deleting keeps the remaining tasks in their relative order: the
      result is the list with the matching tasks cut out. */
  lemma {:induction false} WithoutAppend(a: seq<Task>, b: seq<Task>, id: string)
    ensures Without(a + b, id) == Without(a, id) + Without(b, id)
    decreases |a|
  {
    if |a| == 0 {
      assert a + b == b;
    } else {
      assert (a + b)[1..] == a[1..] + b;
      WithoutAppend(a[1..], b, id);
    }
  }

  // ---------------------------------------------------------------------
  // reorderTasks

  /** `const task = tasks.find(t => t.id === id); if (task) task.order = n`. */
  function SetOrder(ts: seq<Task>, id: string, n: int): (r: seq<Task>)
    ensures |r| == |ts|
    ensures forall j :: 0 <= j < |ts| ==> r[j] == ts[j].(order := r[j].order)
    ensures FindIndex(ts, id).None? ==> r == ts
    ensures FindIndex(ts, id).Some? ==> r[FindIndex(ts, id).value].order == n
    ensures FindIndex(ts, id).Some? ==>
      forall j :: 0 <= j < |ts| && j != FindIndex(ts, id).value ==> r[j] == ts[j]
  {
    match FindIndex(ts, id)
    case None => ts
    case Some(i) => ts[i := ts[i].(order := n)]
  }

  /** `taskIds.forEach((id, index) => …)` over the first `|ids|` ids. */
  function Reorder(ts: seq<Task>, ids: seq<string>): (r: seq<Task>)
    ensures |r| == |ts|
    ensures forall j :: 0 <= j < |ts| ==> r[j] == ts[j].(order := r[j].order)
    decreases |ids|
  {
    if |ids| == 0 then ts
    else SetOrder(Reorder(ts, ids[..|ids| - 1]), ids[|ids| - 1], |ids| - 1)
  }

  /** `reorderTasks`: the record with the listed tasks renumbered. */
  function ReorderTasks(rec: DayRecord, ids: seq<string>): (r: DayRecord)
    ensures r.date == rec.date && |r.tasks| == |rec.tasks|
    ensures Ids(r.tasks) == Ids(rec.tasks)
    ensures forall j :: 0 <= j < |rec.tasks| ==> r.tasks[j] == rec.tasks[j].(order := r.tasks[j].order)
    ensures forall j :: 0 <= j < |rec.tasks| ==> r.tasks[j].order == ReorderedOrder(rec.tasks, ids, j)
  {
    ReorderSpec(rec.tasks, ids);
    DayRecord(rec.date, Reorder(rec.tasks, ids))
  }

  /** The position of the last occurrence of `x` in `xs`. */
  function LastIndex(xs: seq<string>, x: string): (r: Option<nat>)
    ensures r.Some? ==> r.value < |xs| && xs[r.value] == x
    ensures r.Some? ==> forall j :: r.value < j < |xs| ==> xs[j] != x
    ensures r.None? <==> forall j :: 0 <= j < |xs| ==> xs[j] != x
  {
    if |xs| == 0 then None
    else if xs[|xs| - 1] == x then Some(|xs| - 1)
    else LastIndex(xs[..|xs| - 1], x)
  }

  /** The order `reorderTasks(ids)` gives the task at `j`: the index of the
      last listing of its id, when it is the first task with that id and
      its id is listed; otherwise its order is left as it was. */
  function ReorderedOrder(ts: seq<Task>, ids: seq<string>, j: nat): int
    requires j < |ts|
  {
    var t := ts[j];
    if FindIndex(ts, t.id) == Some(j) && LastIndex(ids, t.id).Some? then LastIndex(ids, t.id).value
    else t.order
  }

  /** `reorderTasks` gives every task the order `ReorderedOrder` names. */
  lemma {:induction false} ReorderSpec(ts: seq<Task>, ids: seq<string>)
    ensures forall j :: 0 <= j < |ts| ==> Reorder(ts, ids)[j].order == ReorderedOrder(ts, ids, j)
    decreases |ids|
  {
    if |ids| > 0 {
      var k := |ids| - 1;
      var prev := Reorder(ts, ids[..k]);
      ReorderSpec(ts, ids[..k]);
      FindIndexSameIds(prev, ts, ids[k]);
      var r := Reorder(ts, ids);
      assert r == SetOrder(prev, ids[k], k);
      forall j | 0 <= j < |ts|
        ensures r[j].order == ReorderedOrder(ts, ids, j)
      {
        if ts[j].id != ids[k] {
          assert LastIndex(ids, ts[j].id) == LastIndex(ids[..k], ts[j].id);
          assert r[j] == prev[j];
        } else if FindIndex(ts, ids[k]) == Some(j) {
          assert LastIndex(ids, ids[k]) == Some(k);
        } else {
          assert r[j] == prev[j];
        }
      }
    }
  }

  /** With distinct task ids and a list naming every task once, the task
      listed at position `k` ends with order `k`. */
  lemma ReorderPermutation(ts: seq<Task>, ids: seq<string>, k: nat)
    requires DistinctIds(ts)
    requires k < |ids| && forall i, j :: 0 <= i < j < |ids| ==> ids[i] != ids[j]
    requires FindIndex(ts, ids[k]).Some?
    ensures Reorder(ts, ids)[FindIndex(ts, ids[k]).value].order == k
  {
    ReorderSpec(ts, ids);
    var j := FindIndex(ts, ids[k]).value;
    assert LastIndex(ids, ids[k]) == Some(k);
  }

  // ---------------------------------------------------------------------
  // toggleDone, cyclePriority, cycleEstimate

  /** JavaScript's `%` for a positive divisor: truncating division, so the
      remainder takes the sign of the dividend. */
  function JsRem(a: int, b: int): (r: int)
    requires b > 0
    ensures a >= 0 ==> 0 <= r < b
    ensures a < 0 ==> -b < r <= 0
    ensures a >= 0 ==> r == a % b
    ensures exists q :: a - r == b * q
  {
    if a >= 0 then
      assert a - a % b == b * (a / b);
      a % b
    else
      var m := (-a) % b;
      assert -a == b * ((-a) / b) + m;
      assert a + m == b * (-((-a) / b));
      -m
  }

  /** `(task.priority % 3) + 1`. */
  function NextPriority(p: int): (r: int)
    ensures p >= 0 ==> 1 <= r <= 3
    ensures p < 0 ==> -1 <= r <= 1
    ensures 1 <= p <= 3 ==> r != p
  {
    JsRem(p, 3) + 1
  }

  /** On 1..3 the cycle is 1 → 2 → 3 → 1, of period 3. */
  lemma PriorityCycle(p: int)
    requires 1 <= p <= 3
    ensures NextPriority(p) == if p == 3 then 1 else p + 1
    ensures NextPriority(NextPriority(NextPriority(p))) == p
  {
  }

  /** `ESTIMATE_VALUES`. */
  const EstimateValues: seq<Option<int>> := [None, Some(5), Some(15), Some(30), Some(60)]

  /** `ESTIMATE_VALUES.indexOf(e)`, -1 for a value not in the list. */
  function EstimateIndex(e: Option<int>): (i: int)
    ensures -1 <= i < |EstimateValues|
    ensures i >= 0 ==> EstimateValues[i] == e
    ensures i == -1 <==> e !in EstimateValues
  {
    if e == None then 0
    else if e == Some(5) then 1
    else if e == Some(15) then 2
    else if e == Some(30) then 3
    else if e == Some(60) then 4
    else -1
  }

  /** `ESTIMATE_VALUES[(currentIndex + 1) % ESTIMATE_VALUES.length]`. */
  function NextEstimate(e: Option<int>): (r: Option<int>)
    ensures r in EstimateValues
    ensures e !in EstimateValues ==> r == None
    ensures e in EstimateValues ==> EstimateIndex(r) == (EstimateIndex(e) + 1) % 5
  {
    EstimateValues[JsRem(EstimateIndex(e) + 1, |EstimateValues|)]
  }

  /** The cycle is null → 5 → 15 → 30 → 60 → null, of period 5. */
  lemma EstimateCycle(e: Option<int>)
    requires e in EstimateValues
    ensures NextEstimate(NextEstimate(NextEstimate(NextEstimate(NextEstimate(e))))) == e
  {
    EstimateSteps();
  }

  lemma EstimateSteps()
    ensures NextEstimate(None) == Some(5)
    ensures NextEstimate(Some(5)) == Some(15)
    ensures NextEstimate(Some(15)) == Some(30)
    ensures NextEstimate(Some(30)) == Some(60)
    ensures NextEstimate(Some(60)) == None
  {
    assert EstimateIndex(None) == 0;
    assert EstimateIndex(Some(5)) == 1;
    assert EstimateIndex(Some(15)) == 2;
    assert EstimateIndex(Some(30)) == 3;
    assert EstimateIndex(Some(60)) == 4;
  }

  /** `toggleDone`: flips `done` of the first task with the id. */
  function ToggleDone(rec: DayRecord, id: string): (r: Updated)
    ensures r.record.date == rec.date && |r.record.tasks| == |rec.tasks|
    ensures FindIndex(rec.tasks, id).None? ==> r.record == rec && r.task.None?
    ensures FindIndex(rec.tasks, id).Some? ==>
      var i := FindIndex(rec.tasks, id).value;
      r.record.tasks[i] == rec.tasks[i].(done := !rec.tasks[i].done) && r.task == Some(r.record.tasks[i])
    ensures FindIndex(rec.tasks, id).Some? ==>
      forall j :: 0 <= j < |rec.tasks| && j != FindIndex(rec.tasks, id).value ==>
        r.record.tasks[j] == rec.tasks[j]
  {
    match FindIndex(rec.tasks, id)
    case None => Updated(rec, None)
    case Some(i) => UpdateTask(rec, id, Patch(None, Some(!rec.tasks[i].done), None, None))
  }

  /** `cyclePriority`: the first task with the id moves to the next priority. */
  function CyclePriority(rec: DayRecord, id: string): (r: Updated)
    ensures r.record.date == rec.date && |r.record.tasks| == |rec.tasks|
    ensures FindIndex(rec.tasks, id).None? ==> r.record == rec && r.task.None?
    ensures FindIndex(rec.tasks, id).Some? ==>
      var i := FindIndex(rec.tasks, id).value;
      r.record.tasks[i] == rec.tasks[i].(priority := NextPriority(rec.tasks[i].priority)) && r.task == Some(r.record.tasks[i])
    ensures FindIndex(rec.tasks, id).Some? ==>
      forall j :: 0 <= j < |rec.tasks| && j != FindIndex(rec.tasks, id).value ==>
        r.record.tasks[j] == rec.tasks[j]
  {
    match FindIndex(rec.tasks, id)
    case None => Updated(rec, None)
    case Some(i) => UpdateTask(rec, id, Patch(None, None, Some(NextPriority(rec.tasks[i].priority)), None))
  }

  /** `cycleEstimate`: the first task with the id moves to the next estimate. */
  function CycleEstimate(rec: DayRecord, id: string): (r: Updated)
    ensures r.record.date == rec.date && |r.record.tasks| == |rec.tasks|
    ensures FindIndex(rec.tasks, id).None? ==> r.record == rec && r.task.None?
    ensures FindIndex(rec.tasks, id).Some? ==>
      var i := FindIndex(rec.tasks, id).value;
      r.record.tasks[i] == rec.tasks[i].(estimate := NextEstimate(rec.tasks[i].estimate)) && r.task == Some(r.record.tasks[i])
    ensures FindIndex(rec.tasks, id).Some? ==>
      forall j :: 0 <= j < |rec.tasks| && j != FindIndex(rec.tasks, id).value ==>
        r.record.tasks[j] == rec.tasks[j]
  {
    match FindIndex(rec.tasks, id)
    case None => Updated(rec, None)
    case Some(i) => UpdateTask(rec, id, Patch(None, None, None, Some(NextEstimate(rec.tasks[i].estimate))))
  }

  /** Toggling twice restores the record. */
  lemma ToggleTwice(rec: DayRecord, id: string)
    ensures ToggleDone(ToggleDone(rec, id).record, id).record == rec
  {
    var r1 := ToggleDone(rec, id).record;
    FindIndexSameIds(r1.tasks, rec.tasks, id);
    if FindIndex(rec.tasks, id).Some? {
      var i := FindIndex(rec.tasks, id).value;
      var r2 := ToggleDone(r1, id).record;
      assert r2.tasks == rec.tasks;
    }
  }

  /** Cycling a priority in 1..3 three times restores the record. */
  lemma PriorityThrice(rec: DayRecord, id: string)
    requires FindIndex(rec.tasks, id).Some? ==> 1 <= rec.tasks[FindIndex(rec.tasks, id).value].priority <= 3
    ensures CyclePriority(CyclePriority(CyclePriority(rec, id).record, id).record, id).record == rec
  {
    var r1 := CyclePriority(rec, id).record;
    FindIndexSameIds(r1.tasks, rec.tasks, id);
    var r2 := CyclePriority(r1, id).record;
    FindIndexSameIds(r2.tasks, r1.tasks, id);
    var r3 := CyclePriority(r2, id).record;
    if FindIndex(rec.tasks, id).Some? {
      var i := FindIndex(rec.tasks, id).value;
      PriorityCycle(rec.tasks[i].priority);
      assert r3.tasks == rec.tasks;
    }
  }

  /** `tasks.filter(t => !t.done)`. */
  function Incomplete(ts: seq<Task>): (r: seq<Task>)
    ensures |r| <= |ts|
    ensures forall t :: t in r <==> t in ts && !t.done
  {
    if |ts| == 0 then []
    else if ts[0].done then Incomplete(ts[1..])
    else [ts[0]] + Incomplete(ts[1..])
  }
}

=== FILE: text.dfy ===
/** Character classes and small string routines of the JavaScript runtime
    that the task store relies on: `\s` and `\d` of regular expressions,
    `String.prototype.trim`, `String(n)` on a non-negative integer,
    `padStart` and `parseInt(s, 10)`. */
module Text {

  /** The characters matched by `\s` and removed by `trim()`: the
      ECMAScript WhiteSpace and LineTerminator code points. */
  predicate IsSpace(c: char) {
    || c == ' '
    || ('\t' <= c <= '\r')
    || c == '\U{A0}'
    || c == '\U{1680}'
    || ('\U{2000}' <= c <= '\U{200A}')
    || c == '\U{2028}'
    || c == '\U{2029}'
    || c == '\U{202F}'
    || c == '\U{205F}'
    || c == '\U{3000}'
    || c == '\U{FEFF}'
  }

  /** The characters matched by `\d`: ASCII decimal digits only. */
  predicate IsDigit(c: char) {
    '0' <= c <= '9'
  }

  predicate AllSpaces(s: string) {
    forall k :: 0 <= k < |s| ==> IsSpace(s[k])
  }

  predicate AllDigits(s: string) {
    forall k :: 0 <= k < |s| ==> IsDigit(s[k])
  }

  /** `s.trimStart()`: drops the leading whitespace and nothing else. */
  function TrimStart(s: string): (r: string)
    ensures |r| <= |s| && r == s[|s| - |r|..]
    ensures AllSpaces(s[..|s| - |r|])
    ensures r == [] || !IsSpace(r[0])
    decreases |s|
  {
    if |s| > 0 && IsSpace(s[0]) then
      var t := TrimStart(s[1..]);
      var n := |s| - |t|;
      assert t == s[n..] by {
        assert s[1..][n - 1..] == s[n..];
      }
      assert AllSpaces(s[..n]) by {
        forall k | 0 <= k < n ensures IsSpace(s[..n][k]) {
          if k > 0 {
            assert s[..n][k] == s[1..][..n - 1][k - 1];
          }
        }
      }
      t
    else s
  }

  /** `s.trimEnd()`: drops the trailing whitespace and nothing else. */
  function TrimEnd(s: string): (r: string)
    ensures |r| <= |s| && r == s[..|r|]
    ensures AllSpaces(s[|r|..])
    ensures r == [] || !IsSpace(r[|r| - 1])
    decreases |s|
  {
    if |s| > 0 && IsSpace(s[|s| - 1]) then
      var t := TrimEnd(s[..|s| - 1]);
      assert t == s[..|t|] by {
        assert s[..|s| - 1][..|t|] == s[..|t|];
      }
      assert AllSpaces(s[|t|..]) by {
        forall k | 0 <= k < |s| - |t| ensures IsSpace(s[|t|..][k]) {
          if k < |s| - 1 - |t| {
            assert s[|t|..][k] == s[..|s| - 1][|t|..][k];
          }
        }
      }
      t
    else s
  }

  /** `s.trim()`: the input with the whitespace at both ends cut off. */
  function Trim(s: string): (r: string)
    ensures r == [] || (!IsSpace(r[0]) && !IsSpace(r[|r| - 1]))
    ensures r == [] <==> AllSpaces(s)
    ensures exists i, j :: 0 <= i <= j <= |s| && r == s[i..j] && AllSpaces(s[..i]) && AllSpaces(s[j..])
  {
    var t := TrimStart(s);
    var r := TrimEnd(t);
    SplitAt(s, |s| - |t|);
    SplitAt(t, |r|);
    Middle(s, s[..|s| - |t|], t, r, t[|r|..]);
    r
  }

  /** What is left between a whitespace prefix and a whitespace suffix is
      a slice of the whole, and empty only when the whole is whitespace. */
  lemma Middle(s: string, pre: string, t: string, r: string, post: string)
    requires s == pre + t && t == r + post && AllSpaces(pre) && AllSpaces(post)
    ensures exists i, j :: 0 <= i <= j <= |s| && r == s[i..j] && AllSpaces(s[..i]) && AllSpaces(s[j..])
    ensures r == [] ==> AllSpaces(s)
  {
    var i := |pre|;
    var j := i + |r|;
    assert s[..i] == pre && s[i..j] == r && s[j..] == post;
    if r == [] {
      assert s == pre + post;
    }
  }

  /** Trimming never lengthens a string. */
  lemma TrimShorter(s: string)
    ensures |Trim(s)| <= |s|
  {
  }

  /** The digit character of a value below ten. */
  function DigitChar(n: nat): (c: char)
    requires n < 10
    ensures IsDigit(c)
  {
    ['0', '1', '2', '3', '4', '5', '6', '7', '8', '9'][n]
  }

  /** The value of a digit character. */
  function DigitValue(c: char): (n: nat)
    requires IsDigit(c)
    ensures n < 10 && DigitChar(n) == c
  {
    (c as int - '0' as int) as nat
  }

  /** `String(n)` for a non-negative integer: its shortest decimal form. */
  function NatToString(n: nat): (r: string)
    ensures |r| > 0 && AllDigits(r)
    ensures |r| > 1 ==> r[0] != '0'
    decreases n
  {
    if n < 10 then [DigitChar(n)] else NatToString(n / 10) + [DigitChar(n % 10)]
  }

  /** `parseInt(s, 10)` on a string of decimal digits (unbounded). */
  function DecimalValue(s: string): nat
    requires AllDigits(s)
    decreases |s|
  {
    if s == [] then 0 else 10 * DecimalValue(s[..|s| - 1]) + DigitValue(s[|s| - 1])
  }

  /** `parseInt` reads back what `String` wrote. */
  lemma {:induction false} DecimalOfNatToString(n: nat)
    ensures DecimalValue(NatToString(n)) == n
    decreases n
  {
    var r := NatToString(n);
    if n >= 10 {
      DecimalOfNatToString(n / 10);
      assert r[..|r| - 1] == NatToString(n / 10);
    }
  }

  /** Four-digit years print as exactly four characters. */
  lemma NatToStringLength4(n: nat)
    requires 1000 <= n <= 9999
    ensures |NatToString(n)| == 4
  {
    var a := n / 10;
    var b := a / 10;
    var c := b / 10;
    assert 100 <= a <= 999 && 10 <= b <= 99 && 1 <= c <= 9;
    LengthStep(n);
    LengthStep(a);
    LengthStep(b);
  }

  /** Each further decimal place adds one character. */
  lemma LengthStep(n: nat)
    requires n >= 10
    ensures |NatToString(n)| == |NatToString(n / 10)| + 1
  {
  }

  /** Values below a hundred print in at most two characters. */
  lemma NatToStringShort(n: nat)
    requires n < 100
    ensures |NatToString(n)| <= 2
  {
    if n >= 10 {
      assert |NatToString(n / 10)| == 1;
    }
  }

  /** `s.padStart(2, '0')`: left-pads with zeros to length two, leaving
      longer strings alone. */
  function PadStart2(s: string): (r: string)
    ensures |s| >= 2 ==> r == s
    ensures |s| < 2 ==> |r| == 2 && r[2 - |s|..] == s && AllZeros(r[..2 - |s|])
  {
    if |s| == 0 then "00" else if |s| == 1 then "0" + s else s
  }

  predicate AllZeros(s: string) {
    forall k :: 0 <= k < |s| ==> s[k] == '0'
  }

  /** A sequence is its prefix followed by its suffix. */
  lemma SplitAt<T>(s: seq<T>, n: nat)
    requires n <= |s|
    ensures s == s[..n] + s[n..]
  {
  }

  /** Adjacent slices join into one. */
  lemma SliceJoin<T>(s: seq<T>, i: nat, j: nat, k: nat)
    requires i <= j <= k <= |s|
    ensures s[i..j] + s[j..k] == s[i..k]
  {
  }
}

=== FILE: transfer.dfy ===
/** Export and import of the whole store. The JSON text, the file and
    the download are not modelled; a backup is the parsed object. */
module Transfer {
  import opened Wrappers
  import opened Tasks
  import opened DayStore
  import opened Rollover

  /** The `days` field of a parsed backup: absent or falsy, present but not
      an array, or an array of day records. */
  datatype DaysField = Missing | NotAnArray | DayArray(records: seq<DayRecord>)

  /** A parsed backup: `days`, and `meta.lastOpenedDate` (`None` when
      `meta` or the field is absent). */
  datatype Backup = Backup(days: DaysField, lastOpenedDate: Option<string>)

  /** The puts of the import loop, in order: a later record under the same
      date replaces an earlier one. */
  function PutAll(days: map<string, DayRecord>, recs: seq<DayRecord>): (r: map<string, DayRecord>)
    ensures forall k :: k in r <==> k in days || exists i :: 0 <= i < |recs| && recs[i].date == k
    ensures WellKeyed(days) ==> WellKeyed(r)
    decreases |recs|
  {
    if |recs| == 0 then days
    else
      var n := |recs| - 1;
      var r := PutAll(days, recs[..n])[recs[n].date := recs[n]];
      assert forall i :: 0 <= i < n ==> recs[..n][i] == recs[i];
      r
  }

  /** No later record of `recs` has the date of the one at `i`, so the
      put of that one is the last under its date. */
  predicate LastWithDate(recs: seq<DayRecord>, i: nat)
    requires i < |recs|
  {
    forall j :: i < j < |recs| ==> recs[j].date != recs[i].date
  }

  /** The store after an import, and the error it was rejected with. */
  datatype Imported = Imported(store: Store, error: Option<string>)

  /** `importData`: a backup without a `days` array is refused before
      anything is cleared; otherwise the store is cleared, meta included,
      every record is put, and `lastOpenedDate` is set only when the backup
      carries a non-empty one. */
  function ImportData(s: Store, b: Backup): (r: Imported)
    ensures r.error.Some? <==> !b.days.DayArray?
    ensures r.error.Some? ==> r.store == s
    ensures r.error.None? ==> WellKeyed(r.store.days)
    ensures r.error.None? ==> forall k :: k in r.store.days <==>
      exists i :: 0 <= i < |b.days.records| && b.days.records[i].date == k
    ensures r.error.None? ==> (r.store.lastOpened.Some? <==> Truthy(b.lastOpenedDate))
    ensures r.error.None? && Truthy(b.lastOpenedDate) ==> r.store.lastOpened == b.lastOpenedDate
    ensures r.error.None? ==> forall i :: 0 <= i < |b.days.records| && LastWithDate(b.days.records, i) ==>
      b.days.records[i].date in r.store.days && r.store.days[b.days.records[i].date] == b.days.records[i]
  {
    match b.days
    case Missing => Imported(s, Some("Invalid data format"))
    case NotAnArray => Imported(s, Some("Invalid data format"))
    case DayArray(recs) =>
      var days := PutAll(map[], recs);
      assert forall i :: 0 <= i < |recs| && LastWithDate(recs, i) ==>
        recs[i].date in days && days[recs[i].date] == recs[i] by {
        forall i | 0 <= i < |recs| && LastWithDate(recs, i)
          ensures recs[i].date in days && days[recs[i].date] == recs[i]
        {
          PutAllFinds(map[], recs, i);
        }
      }
      Imported(Store(days, if Truthy(b.lastOpenedDate) then b.lastOpenedDate else None), None)
  }

  /** `exportData`: every stored record, listed in `keys` order, and the
      last opened date. `keys` stands for the keys `getAll` walks: every
      stored date, once each. */
  function ExportData(s: Store, keys: seq<string>): (r: Backup)
    requires forall k :: k in keys <==> k in s.days
    requires forall i, j :: 0 <= i < j < |keys| ==> keys[i] != keys[j]
    ensures r.days.DayArray? && |r.days.records| == |keys| == |s.days|
    ensures forall i :: 0 <= i < |keys| ==> r.days.records[i] == s.days[keys[i]]
    ensures forall k :: k in s.days ==> exists i :: 0 <= i < |keys| && r.days.records[i] == s.days[k]
    ensures r.lastOpenedDate == s.lastOpened
  {
    RecordsCoverStore(s, keys);
    Backup(DayArray(RecordsOf(s, keys)), s.lastOpened)
  }

  /** The records under `keys`, in that order. */
  function RecordsOf(s: Store, keys: seq<string>): (r: seq<DayRecord>)
    requires forall k :: k in keys ==> k in s.days
    ensures |r| == |keys| && forall i :: 0 <= i < |keys| ==> r[i] == s.days[keys[i]]
  {
    seq(|keys|, i requires 0 <= i < |keys| => s.days[keys[i]])
  }

  /** Listing every stored date once lists every stored record once. */
  lemma RecordsCoverStore(s: Store, keys: seq<string>)
    requires forall k :: k in keys <==> k in s.days
    requires forall i, j :: 0 <= i < j < |keys| ==> keys[i] != keys[j]
    ensures |keys| == |s.days|
    ensures forall k :: k in s.days ==> exists i :: 0 <= i < |keys| && RecordsOf(s, keys)[i] == s.days[k]
  {
    var recs := RecordsOf(s, keys);
    forall k | k in s.days ensures exists i :: 0 <= i < |keys| && recs[i] == s.days[k] {
      var i :| 0 <= i < |keys| && keys[i] == k;
      assert recs[i] == s.days[k];
    }
    DistinctCount(keys, s.days.Keys);
  }

  /** A list naming every element of a set exactly once is as long as the
      set is large. */
  lemma {:induction false} DistinctCount(keys: seq<string>, ks: set<string>)
    requires forall k :: k in keys <==> k in ks
    requires forall i, j :: 0 <= i < j < |keys| ==> keys[i] != keys[j]
    ensures |keys| == |ks|
    decreases |keys|
  {
    if |keys| > 0 {
      var n := |keys| - 1;
      var front := keys[..n];
      assert keys[n] !in front;
      assert forall k :: k in front <==> k in ks - {keys[n]} by {
        forall k ensures k in front <==> k in ks - {keys[n]} {
          if k in front {
            var i :| 0 <= i < n && front[i] == k;
            assert keys[i] == k;
          }
          if k in ks - {keys[n]} {
            var i :| 0 <= i < |keys| && keys[i] == k;
            assert i < n && front[i] == k;
          }
        }
      }
      DistinctCount(front, ks - {keys[n]});
    }
  }

  /** A record is found again after the puts, under its own date, unless a
      later record with that date replaced it. */
  lemma {:induction false} PutAllFinds(days: map<string, DayRecord>, recs: seq<DayRecord>, i: nat)
    requires i < |recs| && forall j :: i < j < |recs| ==> recs[j].date != recs[i].date
    ensures recs[i].date in PutAll(days, recs) && PutAll(days, recs)[recs[i].date] == recs[i]
    decreases |recs|
  {
    var n := |recs| - 1;
    var prefix := recs[..n];
    if i < n {
      assert prefix[i] == recs[i];
      assert forall j :: i < j < |prefix| ==> prefix[j] == recs[j];
      PutAllFinds(days, prefix, i);
      assert recs[n].date != recs[i].date;
    }
  }

  /** Importing what was exported restores the store, provided every key
      was exported once and the last opened date, if set, is non-empty. */
  lemma ExportImportRoundTrip(s: Store, keys: seq<string>)
    requires WellKeyed(s.days)
    requires forall k :: k in keys <==> k in s.days
    requires forall i, j :: 0 <= i < j < |keys| ==> keys[i] != keys[j]
    requires s.lastOpened.Some? ==> s.lastOpened.value != ""
    ensures ImportData(s, ExportData(s, keys)) == Imported(s, None)
  {
    var recs := ExportData(s, keys).days.records;
    PutAllRestores(s.days, keys, recs);
  }

  /** Putting the records listed under every key once, into an empty map,
      rebuilds the map. */
  lemma PutAllRestores(days: map<string, DayRecord>, keys: seq<string>, recs: seq<DayRecord>)
    requires WellKeyed(days)
    requires forall k :: k in keys <==> k in days
    requires forall i, j :: 0 <= i < j < |keys| ==> keys[i] != keys[j]
    requires |recs| == |keys| && forall i :: 0 <= i < |keys| ==> recs[i] == days[keys[i]]
    ensures PutAll(map[], recs) == days
  {
    var r := PutAll(map[], recs);
    PutAllKeepsEvery(days, keys, recs);
    PutAllAddsNone(days, keys, recs);
    assert r.Keys == days.Keys;
  }

  /** Every stored record is found again under its date. */
  lemma PutAllKeepsEvery(days: map<string, DayRecord>, keys: seq<string>, recs: seq<DayRecord>)
    requires WellKeyed(days)
    requires forall k :: k in keys <==> k in days
    requires forall i, j :: 0 <= i < j < |keys| ==> keys[i] != keys[j]
    requires |recs| == |keys| && forall i :: 0 <= i < |keys| ==> recs[i] == days[keys[i]]
    ensures forall k :: k in days ==> k in PutAll(map[], recs) && PutAll(map[], recs)[k] == days[k]
  {
    forall k | k in days
      ensures k in PutAll(map[], recs) && PutAll(map[], recs)[k] == days[k]
    {
      var i :| 0 <= i < |keys| && keys[i] == k;
      ListedOnce(days, keys, recs, i);
      PutAllFinds(map[], recs, i);
    }
  }

  /** No date outside the store appears. */
  lemma PutAllAddsNone(days: map<string, DayRecord>, keys: seq<string>, recs: seq<DayRecord>)
    requires WellKeyed(days)
    requires forall k :: k in keys <==> k in days
    requires |recs| == |keys| && forall i :: 0 <= i < |keys| ==> recs[i] == days[keys[i]]
    ensures forall k :: k in PutAll(map[], recs) ==> k in days
  {
    forall k | k in PutAll(map[], recs) ensures k in days {
      var i :| 0 <= i < |recs| && recs[i].date == k;
      assert recs[i] == days[keys[i]];
    }
  }

  /** With distinct keys, no later record shares the date of record `i`. */
  lemma ListedOnce(days: map<string, DayRecord>, keys: seq<string>, recs: seq<DayRecord>, i: nat)
    requires WellKeyed(days)
    requires forall k :: k in keys <==> k in days
    requires forall i, j :: 0 <= i < j < |keys| ==> keys[i] != keys[j]
    requires |recs| == |keys| && forall i :: 0 <= i < |keys| ==> recs[i] == days[keys[i]]
    requires i < |recs|
    ensures LastWithDate(recs, i)
  {
    forall j | i < j < |recs| ensures recs[j].date != recs[i].date {
      assert recs[j].date == keys[j];
    }
  }
}

=== FILE: wrappers.dfy ===
/** Optional values, standing in for the `null`/`undefined` returns of
    the task store. */
module Wrappers {

  /** A value that may be absent (`null` or `undefined`). */
  datatype Option<+T> = None | Some(value: T) {

    /** The contained value, or `default` when absent (the `x || default` idiom). */
    function GetOr(default: T): T {
      match this
      case Some(v) => v
      case None => default
    }
  }
}
